=== FILE: README.md ===
# Hashtag pipeline of the reactive tweet services

A model of the one piece of real logic in the reactive Spring training
repository. That logic is the hashtag pipeline, and it appears twice:

- in `tweet-service`, whose tags keep their letter case;
- in `reactive-akka-streams`, whose tags are lower-cased after the strip.

The pipeline has three steps:

- `Tweet.getHashTags` cuts the tweet text at every single space the way
  Java's `String.split(" ")` does. It keeps the tokens that start with `#`
  and deletes every character outside `[#\w]`. In the lower-casing copy it
  then lower-cases the result. The results are collected into a set of
  `HashTag`.
- `TweetService.hashtags()` maps every tweet from the repository to its tag
  set and `reduce`s the sets with a union lambda.
- `mapConcat` then emits the elements of the one reduced set.

A token that is only a marker and punctuation (`#!`) gives the tag `#`.
`split(" ")` cuts at the space character only, so a newline stays inside
its token.

Each application saves six seed tweets at start-up. The model proves which
tag set the pipeline reduces them to.

Modules:

- `CharClass` (`chars.dfy`): Java's default ASCII `\w`, the strip
  `replaceAll("[^#\\w]", "")` and ASCII lower-casing.
- `SpaceSplit` (`split.dfy`): `split(" ")` with limit 0. The text is cut at
  every space and trailing empty strings are dropped. A text with no space
  comes back as the one-element array holding the text.
- `HashTags` (`hashtags.dfy`): the records `Tweet`, `Author` and `HashTag`,
  and `getHashTags` for both copies. The copy is selected by a `Flavor`.
- `Aggregation` (`aggregation.dfy`): `reduce` with the union lambda, the
  per-tweet map, `mapConcat`, and the pipeline as one method.
- `Seeds` (`seeds.dfy`): the seed tweets of both applications and their
  aggregates.
- `EdgeCases` (`edge_cases.dfy`):
  - punctuation glued to a tag;
  - the bare marker;
  - double spaces;
  - letter case within one text and across tweets.

`HashTag` is a Lombok `@Data` class, so two tags are equal exactly when
their strings are. That is datatype equality in the model.

## Model

| member | source | states |
|---|---|---|
| CharClass.Strip | tweet-service/src/main/java/com/example/tweetservice/TweetServiceApplication.java:178 | The strip never lengthens a token. It keeps exactly the characters of the token that are in `[#\w]`, and nothing outside that class survives. |
| CharClass.StripAppend | tweet-service/src/main/java/com/example/tweetservice/TweetServiceApplication.java:178 | The strip deletes characters in place. It never splits at them: stripping a concatenation is the concatenation of the stripped parts. |
| CharClass.StripEmpty | tweet-service/src/main/java/com/example/tweetservice/TweetServiceApplication.java:178 | The strip deletes everything exactly when no character is in `[#\w]`. |
| CharClass.StripFixpoint | tweet-service/src/main/java/com/example/tweetservice/TweetServiceApplication.java:178 | A string is unchanged by the strip if and only if every character is in `[#\w]`. |
| CharClass.StripIdempotent | tweet-service/src/main/java/com/example/tweetservice/TweetServiceApplication.java:178 | Stripping twice is the same as stripping once. |
| CharClass.StripKeepsMarker | tweet-service/src/main/java/com/example/tweetservice/TweetServiceApplication.java:177-178 | A token that starts with `#` still starts with `#` after the strip, because `#` is in the kept class. |
| CharClass.LowerAscii | reactive-akka-streams/src/main/java/demo/DemoApplication.java:138 | `toLowerCase()` on ASCII keeps the length and leaves no upper-case letter. Each `A`-`Z` moves to its lower-case partner and every other character stays where it was. |
| CharClass.LowerCharKeepsClass | reactive-akka-streams/src/main/java/demo/DemoApplication.java:138 | ASCII lower-casing of a character never moves it into or out of `[#\w]`. |
| CharClass.LowerAsciiFixpoint | reactive-akka-streams/src/main/java/demo/DemoApplication.java:138 | ASCII lower-casing is idempotent. A string is unchanged by it exactly when it has no `A`-`Z` letter. |
| CharClass.StripLowerCommute | reactive-akka-streams/src/main/java/demo/DemoApplication.java:138 | Stripping then ASCII lower-casing gives what ASCII lower-casing then stripping gives. |
| SpaceSplit.FirstSpace | tweet-service/src/main/java/com/example/tweetservice/TweetServiceApplication.java:176 | The index where `split(" ")` cuts first holds a space, and nothing before it is a space. |
| SpaceSplit.RawSplit | tweet-service/src/main/java/com/example/tweetservice/TweetServiceApplication.java:176 | The cut at every space gives at least one piece and no piece holds a space. It gives exactly one piece precisely when the text has no space. `JoinRawSplit` shows the pieces glue back to the text. |
| SpaceSplit.JoinRawSplit | tweet-service/src/main/java/com/example/tweetservice/TweetServiceApplication.java:176 | Cutting at every space loses nothing: the pieces glued with single spaces give back the text. |
| SpaceSplit.RawSplitJoin | tweet-service/src/main/java/com/example/tweetservice/TweetServiceApplication.java:176 | Space-free pieces glued with single spaces are cut back into exactly those pieces. |
| SpaceSplit.RawSplitAppend | tweet-service/src/main/java/com/example/tweetservice/TweetServiceApplication.java:176 | Cutting two texts joined by a space gives the pieces of the first followed by the pieces of the second. |
| SpaceSplit.RawSplitPieceAt | tweet-service/src/main/java/com/example/tweetservice/TweetServiceApplication.java:176 | Every piece of the cut is a stretch of the text with a space or a text end on each side and no space inside. |
| SpaceSplit.PieceAtInRawSplit | tweet-service/src/main/java/com/example/tweetservice/TweetServiceApplication.java:176 | Every such stretch of the text is a piece of the cut. |
| SpaceSplit.DropTrailingEmpty | tweet-service/src/main/java/com/example/tweetservice/TweetServiceApplication.java:176 | Java's trimming of the split result keeps a prefix of the pieces. Everything removed is empty, and the kept part does not end in an empty piece. |
| SpaceSplit.Split | tweet-service/src/main/java/com/example/tweetservice/TweetServiceApplication.java:176 | `split(" ")` is a prefix of the cut at every space. Only empty pieces are dropped and no trailing empty piece is kept. A text without a space gives the one-element array of the text, even when the text is empty. |
| SpaceSplit.SplitNonEmptyPieces | tweet-service/src/main/java/com/example/tweetservice/TweetServiceApplication.java:176 | Dropping trailing empty strings never changes which non-empty tokens are present. |
| HashTags.Normalize | reactive-akka-streams/src/main/java/demo/DemoApplication.java:138 | A kept token's tag still starts with `#` and uses only `[#\w]`. In the lower-casing copy it has no upper-case letter, and it is never longer than the token. |
| HashTags.GetHashTags | tweet-service/src/main/java/com/example/tweetservice/TweetServiceApplication.java:174-180 | Every extracted tag is a normal tag of its copy: it starts with `#`, uses only `[#\w]`, and is lower-case in the lower-casing copy. |
| HashTags.TweetHashTags | tweet-service/src/main/java/com/example/tweetservice/TweetServiceApplication.java:108 | `Tweet::getHashTags` applied to a tweet of the stream: every tag it gives starts with `#`, uses only `[#\w]`, and is lower-case in the lower-casing copy. |
| HashTags.GetHashTagsRaw | tweet-service/src/main/java/com/example/tweetservice/TweetServiceApplication.java:176-177 | Java's dropping of trailing empty strings never changes the tag set. |
| HashTags.GetHashTagsIff | tweet-service/src/main/java/com/example/tweetservice/TweetServiceApplication.java:174-180 | A tag is extracted if and only if it is the normal form of some space-delimited stretch of the text that starts with `#`. |
| HashTags.TagFromStretch | tweet-service/src/main/java/com/example/tweetservice/TweetServiceApplication.java:176-178 | Every extracted tag is the normal form of a space-delimited stretch of the text that starts with `#`. |
| HashTags.StretchGivesTag | tweet-service/src/main/java/com/example/tweetservice/TweetServiceApplication.java:176-179 | Every space-delimited stretch of the text that starts with `#` contributes its normal form to the tag set. |
| HashTags.NoMarkerNoTags | tweet-service/src/main/java/com/example/tweetservice/TweetServiceApplication.java:177 | A text without `#` has no tags. |
| HashTags.NoMarkedTokenIffNoTags | tweet-service/src/main/java/com/example/tweetservice/TweetServiceApplication.java:176-177 | A text has no tags exactly when none of its split tokens starts with `#`. |
| HashTags.GetHashTagsAppend | tweet-service/src/main/java/com/example/tweetservice/TweetServiceApplication.java:176-179 | The tags of two texts joined by a space are the union of their tags. |
| HashTags.GetHashTagsToken | tweet-service/src/main/java/com/example/tweetservice/TweetServiceApplication.java:176-179 | A space-free token gives the single tag of its normal form when it starts with `#`, and no tag otherwise. |
| HashTags.UnmarkedTokenContributesNothing | tweet-service/src/main/java/com/example/tweetservice/TweetServiceApplication.java:177 | A token that does not start with `#` (a mention, `$$`, an empty token) adds no tag to the rest of the text. |
| HashTags.NormalizeFixpoint | reactive-akka-streams/src/main/java/demo/DemoApplication.java:138 | A token is its own normal form if and only if it uses only `[#\w]` and, in the lower-casing copy, has no upper-case letter. |
| HashTags.NormalizeIdempotent | reactive-akka-streams/src/main/java/demo/DemoApplication.java:138 | Normalising twice gives the same tag as normalising once. |
| HashTags.NormalTagExtractsItself | reactive-akka-streams/src/main/java/demo/DemoApplication.java:136-139 | Extracting from a text that already is a normal tag gives exactly that tag. |
| HashTags.LowerCasingIgnoresCase | reactive-akka-streams/src/main/java/demo/DemoApplication.java:138 | In the lower-casing copy, tokens that differ only in ASCII letter case give the same tag. |
| HashTags.CasePreservingKeepsCase | tweet-service/src/main/java/com/example/tweetservice/TweetServiceApplication.java:178 | In the case-preserving copy, two `[#\w]` tokens give equal tags if and only if they are equal strings. |
| HashTags.JoinedWordsTags | tweet-service/src/main/java/com/example/tweetservice/TweetServiceApplication.java:174-180 | The tags of a text made of space-free words are the normal forms of exactly the words that start with `#`. |
| HashTags.TrailingJunkNormalize | tweet-service/src/main/java/com/example/tweetservice/TweetServiceApplication.java:178 | A `[#\w]` word followed by punctuation normalises to the word itself, lower-cased in the lower-casing copy. |
| Aggregation.Combine | tweet-service/src/main/java/com/example/tweetservice/TweetServiceApplication.java:109-114 | The reducer lambda's new set contains both arguments and nothing else. |
| Aggregation.FoldCombine | tweet-service/src/main/java/com/example/tweetservice/TweetServiceApplication.java:109-114 | Folding with the lambda from an accumulator holds exactly the elements of the accumulator and of the remaining sets. |
| Aggregation.Reduce | tweet-service/src/main/java/com/example/tweetservice/TweetServiceApplication.java:109-114 | `reduce` produces no value exactly when the stream is empty. Otherwise its value holds an element if and only if some input set does. |
| Aggregation.ReduceContainsEach | tweet-service/src/main/java/com/example/tweetservice/TweetServiceApplication.java:109-114 | Every input set is contained in the reduced set. |
| Aggregation.ReduceOrderIndependent | tweet-service/src/main/java/com/example/tweetservice/TweetServiceApplication.java:109-114 | Any reordering of the input sets gives the same reduced value. |
| Aggregation.ReduceGrouping | tweet-service/src/main/java/com/example/tweetservice/TweetServiceApplication.java:109-114 | Reducing a concatenation is the union of reducing each part, so grouping does not matter. |
| Aggregation.ReduceIsUnion | reactive-akka-streams/src/main/java/demo/DemoApplication.java:108-113 | On a non-empty stream the reduced value equals an independent union of all the input sets. |
| Aggregation.TagSets | reactive-akka-streams/src/main/java/demo/DemoApplication.java:107 | The `map(Tweet::getHashTags)` step gives one tag set per tweet, in stream order. |
| Aggregation.Aggregate | reactive-akka-streams/src/main/java/demo/DemoApplication.java:106-113 | There is no value for an empty stream. Otherwise the aggregate holds a tag if and only if some tweet has it, and every tag in it is normal. |
| Aggregation.AggregateOrderIndependent | reactive-akka-streams/src/main/java/demo/DemoApplication.java:106-113 | The aggregate does not depend on the order in which the repository returns the tweets. |
| Aggregation.AggregateSnoc | reactive-akka-streams/src/main/java/demo/DemoApplication.java:108-113 | One more tweet adds exactly its tags to the aggregate of the tweets before it. |
| Aggregation.AggregateCons | reactive-akka-streams/src/main/java/demo/DemoApplication.java:108-113 | A tweet in front of a non-empty stream adds exactly its tags. |
| Aggregation.AggregatePair | reactive-akka-streams/src/main/java/demo/DemoApplication.java:108-113 | The aggregate of two tweets is the union of their tag sets. |
| Aggregation.Flatten | tweet-service/src/main/java/com/example/tweetservice/TweetServiceApplication.java:115 | `mapConcat` emits every element of the set exactly once and nothing else. The output has no duplicates, as many elements as the set, and the same multiset. |
| Aggregation.HashTagStream | reactive-akka-streams/src/main/java/demo/DemoApplication.java:103-117 | On an empty stream nothing is emitted. Otherwise the emitted tags are exactly the tags of some tweet, each emitted once, and as a multiset they equal the aggregate. |
| Seeds.ServiceTweetTags4 | tweet-service/src/main/java/com/example/tweetservice/TweetServiceApplication.java:69 | The `@SpringBoot` tweet has the single tag `#Spring`, with its case kept. |
| Seeds.ServiceSeedAggregate | tweet-service/src/main/java/com/example/tweetservice/TweetServiceApplication.java:64-71 | The six seed tweets aggregate to exactly `#enterprise`, `#integration`, `#akka`, `#alpakka`, `#scala`, `#crdts` and `#Spring`. |
| Seeds.DemoTweetTags3 | reactive-akka-streams/src/main/java/demo/DemoApplication.java:74 | The replication tweet's `#Akka` and `#CRDTs,` give exactly `#akka` and `#crdts`. |
| Seeds.DemoSeedAggregate | reactive-akka-streams/src/main/java/demo/DemoApplication.java:70-77 | The six seed tweets aggregate to exactly `#enterprise`, `#integration`, `#akka`, `#alpakka`, `#scala`, `#crdts`, `#spring` and `#platform`. |
| EdgeCases.PunctuationIsDeleted | tweet-service/src/main/java/com/example/tweetservice/TweetServiceApplication.java:178 | A tag followed by punctuation (`#crdts,`) gives the tag without the punctuation, lower-cased in the lower-casing copy. |
| EdgeCases.BareMarkerIsKept | tweet-service/src/main/java/com/example/tweetservice/TweetServiceApplication.java:177-178 | A marker followed only by punctuation is kept as the bare tag `#`. |
| EdgeCases.BareMarkerExample | tweet-service/src/main/java/com/example/tweetservice/TweetServiceApplication.java:177-178 | The text `#!` gives exactly the tag `#`. |
| EdgeCases.DoubleSpaceContributesNothing | tweet-service/src/main/java/com/example/tweetservice/TweetServiceApplication.java:176-177 | The empty token between two spaces adds no tag. |
| EdgeCases.CaseCollapsesInOneText | reactive-akka-streams/src/main/java/demo/DemoApplication.java:138-139 | In the lower-casing copy, two tokens of one text that differ only in ASCII letter case (`#akka #Akka`) give a single tag. |
| EdgeCases.SingleTokenTweetTags | reactive-akka-streams/src/main/java/demo/DemoApplication.java:136-139 | A tweet whose text is one marked token has exactly that token's normal form as its tag. |
| EdgeCases.CaseCollapsesAcrossTweets | reactive-akka-streams/src/main/java/demo/DemoApplication.java:108-113 | In the lower-casing copy, two tweets whose tokens differ only in ASCII letter case aggregate to a single tag. |
| EdgeCases.CaseKeptApart | tweet-service/src/main/java/com/example/tweetservice/TweetServiceApplication.java:153-161 | In the case-preserving copy, two different clean tags (such as `#Spring` and `#spring`) stay two distinct tags. |

Most members model both copies, which are identical apart from the
lower-casing. The table cites one copy. The matching lines of the other copy
are:

- tweet-service `getHashTags` is at lines 174-180, `reduce` at 109-114 and
  `mapConcat` at 115;
- reactive-akka-streams `getHashTags` is at lines 134-140, `reduce` at
  108-113 and `mapConcat` at 114.

## Left out

- Fan-out and scheduling are not modelled: `Sink.asPublisher`, the
  `ActorMaterializer` and `ActorSystem`, and Reactor scheduling. They are
  library concurrency, so the pipeline is a function from the tweets the
  repository returns to the tags emitted.
- The Spring glue is not modelled: routes, the Mongo repository, and the
  `deleteAll`/`saveAll`/`findAll`/`subscribe` chains of the seed writers.
  They are I/O. The seed tweets enter the model as a sequence.
- Aggregation.Reduce returns `None` on an empty stream. The code uses
  `reduce`, which has no identity element, so no value is claimed for an
  empty stream. In particular the model does not say that an empty stream
  gives an empty set.
- CharClass.LowerAscii lowers only `A`-`Z`, to `a`-`z`. The model assumes
  a default locale whose lower-casing of `A`-`Z` is the ASCII one. Under a
  Turkish or Azeri locale `toLowerCase()` turns `I` into `ı`, so a tag such
  as `#Integration` would leave `[#\w]`.
- CharClass.StripLowerCommute holds for ASCII lower-casing only. Java's
  `toLowerCase` also maps U+212A (Kelvin sign) to `k` and U+0130 to `i`
  followed by U+0307, so in Java the two steps do not commute. The code
  strips first, so only `[#\w]` characters reach `toLowerCase`, and the
  ASCII model is exact for the pipeline itself.
- CharClass.IsWordChar is Java's default ASCII `\w`. The Unicode-aware
  variant needs a flag the code does not pass.
- Aggregation.Flatten picks the elements in any order. `HashSet` iteration
  order is unspecified, so only multiset equality and distinctness are
  stated.
- Seeds: each seed text is written as its list of space-separated words
  joined with single spaces. `SpaceSplit.RawSplitJoin` shows that this is
  the split of that text. The author plays no part in the tags. The text is
  also the tweet's Mongo `@Id`, so saving two tweets with equal text keeps
  one document. That cannot change the union, so the model takes the tweets
  as a plain sequence.
- The other services of the repository are not modelled: the reservation
  and tweet clients, the reservation service, the Kafka listener, and the
  synthetic and server-sent-event services. They are framework wiring with
  no logic of their own.

=== FILE: aggregation.dfy ===
/** `TweetService.hashtags()`: map every tweet to its tag set, `reduce` the
    sets with the union lambda, then `mapConcat` the one resulting set into a
    stream of tags. The Akka sink, the materializer and the fan-out to many
    subscribers are not modelled; the pipeline is a function from the tweets
    the repository returns to the tags the stream emits. */
module Aggregation {
  import opened HashTags

  datatype Option<T> = None | Some(value: T)

  /** The reducer lambda: a new set to which both arguments are added. */
  function Combine<T(!new)>(a: set<T>, b: set<T>): (r: set<T>)
    ensures a <= r && b <= r
    ensures forall x :: x in r ==> x in a || x in b
  {
    a + b
  }

  /** `x` belongs to one of the sets. */
  ghost predicate InSome<T(!new)>(x: T, sets: seq<set<T>>) {
    exists i :: 0 <= i < |sets| && x in sets[i]
  }

  /** The left-to-right fold Akka's `reduce` performs once it holds the first
      element as accumulator. */
  function FoldCombine<T(!new)>(acc: set<T>, rest: seq<set<T>>): (r: set<T>)
    ensures forall x :: x in r <==> x in acc || InSome(x, rest)
    decreases |rest|
  {
    if |rest| == 0 then acc
    else
      var r := FoldCombine(Combine(acc, rest[0]), rest[1..]);
      assert forall x :: InSome(x, rest[1..]) ==> InSome(x, rest) by {
        forall x | InSome(x, rest[1..]) ensures InSome(x, rest) {
          var i :| 0 <= i < |rest[1..]| && x in rest[1..][i];
          assert x in rest[i + 1];
        }
      }
      assert forall x :: InSome(x, rest) ==> x in rest[0] || InSome(x, rest[1..]) by {
        forall x | InSome(x, rest) && x !in rest[0] ensures InSome(x, rest[1..]) {
          var i :| 0 <= i < |rest| && x in rest[i];
          assert rest[1..][i - 1] == rest[i];
        }
      }
      r
  }

  /** `reduce` over the stream of tag sets. A `reduce` has no identity
      element: on an empty stream no value is produced, which is `None` here. */
  function Reduce<T(!new)>(sets: seq<set<T>>): (r: Option<set<T>>)
    ensures r.None? <==> |sets| == 0
    ensures r.Some? ==> forall x :: x in r.value <==> InSome(x, sets)
  {
    if |sets| == 0 then None
    else
      var r := FoldCombine(sets[0], sets[1..]);
      assert forall x :: InSome(x, sets) <==> x in sets[0] || InSome(x, sets[1..]) by {
        forall x ensures InSome(x, sets) <==> x in sets[0] || InSome(x, sets[1..]) {
          if InSome(x, sets[1..]) {
            var i :| 0 <= i < |sets[1..]| && x in sets[1..][i];
            assert x in sets[i + 1];
          }
          if InSome(x, sets) && x !in sets[0] {
            var i :| 0 <= i < |sets| && x in sets[i];
            assert sets[1..][i - 1] == sets[i];
          }
        }
      }
      Some(r)
  }

  /** Each input set is contained in the reduced set. */
  lemma ReduceContainsEach<T(!new)>(sets: seq<set<T>>, i: int)
    requires 0 <= i < |sets|
    ensures Reduce(sets).Some? && sets[i] <= Reduce(sets).value
  {
    forall x | x in sets[i] ensures x in Reduce(sets).value {
      assert InSome(x, sets);
    }
  }

  /** The reduced set does not depend on the order of the input sets. */
  lemma ReduceOrderIndependent<T(!new)>(a: seq<set<T>>, b: seq<set<T>>)
    requires multiset(a) == multiset(b)
    ensures Reduce(a) == Reduce(b)
  {
    assert |a| == |multiset(a)| == |b|;
    if |a| > 0 {
      forall x ensures InSome(x, a) <==> InSome(x, b) {
        if InSome(x, a) {
          var i :| 0 <= i < |a| && x in a[i];
          assert a[i] in multiset(b);
          var j :| 0 <= j < |b| && b[j] == a[i];
        }
        if InSome(x, b) {
          var j :| 0 <= j < |b| && x in b[j];
          assert b[j] in multiset(a);
          var i :| 0 <= i < |a| && a[i] == b[j];
        }
      }
      assert Reduce(a).value == Reduce(b).value;
    }
  }

  /** The reduced set does not depend on how the unions are grouped: reducing
      a concatenation equals the union of reducing each part. */
  lemma ReduceGrouping<T(!new)>(a: seq<set<T>>, b: seq<set<T>>)
    requires |a| > 0 && |b| > 0
    ensures Reduce(a + b) == Some(Reduce(a).value + Reduce(b).value)
  {
    forall x ensures InSome(x, a + b) <==> InSome(x, a) || InSome(x, b) {
      if InSome(x, a + b) {
        var i :| 0 <= i < |a + b| && x in (a + b)[i];
        if i >= |a| {
          assert b[i - |a|] == (a + b)[i];
        }
      }
      if InSome(x, a) {
        var i :| 0 <= i < |a| && x in a[i];
        assert (a + b)[i] == a[i];
      }
      if InSome(x, b) {
        var i :| 0 <= i < |b| && x in b[i];
        assert (a + b)[i + |a|] == b[i];
      }
    }
    assert Reduce(a + b).value == Reduce(a).value + Reduce(b).value;
  }

  /** The `map(Tweet::getHashTags)` step. */
  function TagSets(f: Flavor, tweets: seq<Tweet>): (sets: seq<set<HashTag>>)
    ensures |sets| == |tweets|
    ensures forall i :: 0 <= i < |tweets| ==> sets[i] == TweetHashTags(f, tweets[i])
  {
    seq(|tweets|, i requires 0 <= i < |tweets| => TweetHashTags(f, tweets[i]))
  }

  /** A tag occurs in some tweet of the sequence. */
  ghost predicate TaggedBySome(f: Flavor, h: HashTag, tweets: seq<Tweet>) {
    exists i :: 0 <= i < |tweets| && h in TweetHashTags(f, tweets[i])
  }

  /** The value the `reduce` stage emits: the union of the tag sets of all
      tweets, and nothing when there is no tweet. */
  function Aggregate(f: Flavor, tweets: seq<Tweet>): (r: Option<set<HashTag>>)
    ensures r.None? <==> |tweets| == 0
    ensures r.Some? ==> forall h :: h in r.value <==> TaggedBySome(f, h, tweets)
    ensures r.Some? ==> forall h :: h in r.value ==> IsNormalTag(f, h.tag)
  {
    var sets := TagSets(f, tweets);
    var r := Reduce(sets);
    assert forall h :: InSome(h, sets) <==> TaggedBySome(f, h, tweets);
    r
  }

  /** The aggregate does not depend on the order in which the repository
      returns the tweets. */
  lemma AggregateOrderIndependent(f: Flavor, a: seq<Tweet>, b: seq<Tweet>)
    requires multiset(a) == multiset(b)
    ensures Aggregate(f, a) == Aggregate(f, b)
  {
    assert |a| == |multiset(a)| == |b|;
    if |a| > 0 {
      forall h ensures TaggedBySome(f, h, a) <==> TaggedBySome(f, h, b) {
        if TaggedBySome(f, h, a) {
          var i :| 0 <= i < |a| && h in TweetHashTags(f, a[i]);
          assert a[i] in multiset(b);
          var j :| 0 <= j < |b| && b[j] == a[i];
        }
        if TaggedBySome(f, h, b) {
          var j :| 0 <= j < |b| && h in TweetHashTags(f, b[j]);
          assert b[j] in multiset(a);
          var i :| 0 <= i < |a| && a[i] == b[j];
        }
      }
      assert Aggregate(f, a).value == Aggregate(f, b).value;
    }
  }

  /** `mapConcat(param -> param)` on the one reduced set: every element is
      emitted exactly once and nothing else is. The iteration order of a
      `HashSet` is unspecified, so the order here is any order. */
  method Flatten<T>(s: set<T>) returns (out: seq<T>)
    ensures multiset(out) == multiset(s)
    ensures |out| == |s|
    ensures forall x :: x in out <==> x in s
    ensures forall i, j :: 0 <= i < j < |out| ==> out[i] != out[j]
  {
    out := [];
    var rest := s;
    while rest != {}
      invariant rest <= s
      invariant multiset(out) == multiset(s - rest)
      invariant forall i, j :: 0 <= i < j < |out| ==> out[i] != out[j]
      decreases rest
    {
      var x :| x in rest;
      assert x !in out by {
        assert x !in s - rest;
        assert x !in multiset(out);
      }
      assert (s - (rest - {x})) == (s - rest) + {x};
      out := out + [x];
      rest := rest - {x};
    }
    assert s - rest == s;
    assert forall x :: x in out <==> x in multiset(out);
  }

  /** Reducing a single set gives that set back. */
  lemma ReduceSingleton<T(!new)>(x: set<T>)
    ensures Reduce([x]) == Some(x)
  {
    assert forall y :: InSome(y, [x]) <==> y in x by {
      forall y ensures InSome(y, [x]) <==> y in x {
        if y in x {
          assert [x][0] == x;
        }
      }
    }
    assert Reduce([x]).value == x;
  }

  /** The aggregate of the first tweet alone is its tag set. */
  lemma AggregateFirst(f: Flavor, tweets: seq<Tweet>)
    requires |tweets| > 0
    ensures Aggregate(f, tweets[..1]) == Some(TweetHashTags(f, tweets[0]))
  {
    assert TagSets(f, tweets[..1]) == [TweetHashTags(f, tweets[0])];
    ReduceSingleton(TweetHashTags(f, tweets[0]));
  }

  /** One more tweet from the repository adds exactly its tags to the
      aggregate of the tweets before it. */
  lemma AggregateSnoc(f: Flavor, tweets: seq<Tweet>, n: int)
    requires 1 <= n < |tweets|
    ensures Aggregate(f, tweets[..n + 1]) ==
      Some(Aggregate(f, tweets[..n]).value + TweetHashTags(f, tweets[n]))
  {
    var a, b := TagSets(f, tweets[..n]), [TweetHashTags(f, tweets[n])];
    assert TagSets(f, tweets[..n + 1]) == a + b;
    ReduceGrouping(a, b);
    ReduceSingleton(TweetHashTags(f, tweets[n]));
  }

  /** `hashtags()` as one run of the stream: the tags of the tweets are
      folded one tweet at a time, as the stream delivers them, and the final
      set is flattened. With no tweet the stream emits no tag set. */
  method HashTagStream(f: Flavor, tweets: seq<Tweet>) returns (r: Option<seq<HashTag>>)
    ensures r.None? <==> |tweets| == 0
    ensures r.Some? ==> forall h :: h in r.value <==> TaggedBySome(f, h, tweets)
    ensures r.Some? ==> forall i, j :: 0 <= i < j < |r.value| ==> r.value[i] != r.value[j]
    ensures r.Some? ==> multiset(r.value) == multiset(Aggregate(f, tweets).value)
  {
    if |tweets| == 0 {
      return None;
    }
    var acc := TweetHashTags(f, tweets[0]);
    ReduceSingleton(acc);
    assert TagSets(f, tweets[..1]) == [acc];
    var n := 1;
    while n < |tweets|
      invariant 1 <= n <= |tweets|
      invariant Aggregate(f, tweets[..n]) == Some(acc)
    {
      AggregateSnoc(f, tweets, n);
      acc := Combine(acc, TweetHashTags(f, tweets[n]));
      n := n + 1;
    }
    assert tweets[..n] == tweets;
    var out := Flatten(acc);
    return Some(out);
  }

  /** A tweet in front of a non-empty stream adds exactly its tags. */
  lemma AggregateCons(f: Flavor, t: Tweet, rest: seq<Tweet>)
    requires |rest| > 0
    ensures Aggregate(f, [t] + rest) == Some(TweetHashTags(f, t) + Aggregate(f, rest).value)
  {
    assert TagSets(f, [t] + rest) == [TweetHashTags(f, t)] + TagSets(f, rest);
    ReduceGrouping([TweetHashTags(f, t)], TagSets(f, rest));
    ReduceSingleton(TweetHashTags(f, t));
  }

  /** The aggregate of one tweet is its tag set. */
  lemma AggregateSingle(f: Flavor, t: Tweet)
    ensures Aggregate(f, [t]) == Some(TweetHashTags(f, t))
  {
    assert TagSets(f, [t]) == [TweetHashTags(f, t)];
    ReduceSingleton(TweetHashTags(f, t));
  }

  /** The aggregate of two tweets is the union of their tag sets. */
  lemma AggregatePair(f: Flavor, t: Tweet, u: Tweet)
    ensures Aggregate(f, [t, u]) == Some(TweetHashTags(f, t) + TweetHashTags(f, u))
  {
    AggregateSingle(f, u);
    AggregateCons(f, t, [u]);
    assert [t] + [u] == [t, u];
  }

  /** An independent reference for the reduced value: the union of the sets,
      taken from the right. */
  function UnionAll<T>(sets: seq<set<T>>): set<T>
    decreases |sets|
  {
    if |sets| == 0 then {} else sets[0] + UnionAll(sets[1..])
  }

  /** On a non-empty stream, `reduce` with the union lambda computes the
      union of all the sets. */
  lemma {:induction false} ReduceIsUnion<T(!new)>(sets: seq<set<T>>)
    requires |sets| > 0
    ensures Reduce(sets) == Some(UnionAll(sets))
    decreases |sets|
  {
    if |sets| == 1 {
      ReduceSingleton(sets[0]);
      assert sets == [sets[0]];
      assert UnionAll(sets[1..]) == {};
      assert UnionAll(sets) == sets[0];
    } else {
      ReduceIsUnion(sets[1..]);
      ReduceGrouping([sets[0]], sets[1..]);
      ReduceSingleton(sets[0]);
      assert sets == [sets[0]] + sets[1..];
    }
  }
}

=== FILE: chars.dfy ===
/** Character classes and the two character-level string transformations the
    hashtag extractor applies to a token: deleting every character outside
    `[#\w]` (Java's default, ASCII-only `\w` is `[A-Za-z0-9_]`) and ASCII
    lower-casing. */
module CharClass {

  /** Java's default `\w`: an ASCII letter, an ASCII digit or the underscore. */
  predicate IsWordChar(c: char) {
    || ('a' <= c <= 'z')
    || ('A' <= c <= 'Z')
    || ('0' <= c <= '9')
    || c == '_'
  }

  /** The class `[#\w]` that survives the strip. */
  predicate IsTagChar(c: char) {
    c == '#' || IsWordChar(c)
  }

  predicate IsUpper(c: char) {
    'A' <= c <= 'Z'
  }

  /** Every character of `s` is in `[#\w]`. */
  predicate AllTagChars(s: string) {
    forall i :: 0 <= i < |s| ==> IsTagChar(s[i])
  }

  /** No character of `s` is in `[#\w]`: punctuation and white space only. */
  predicate NoTagChars(s: string) {
    forall i :: 0 <= i < |s| ==> !IsTagChar(s[i])
  }

  /** No character of `s` is an upper-case ASCII letter. */
  predicate NoUpper(s: string) {
    forall i :: 0 <= i < |s| ==> !IsUpper(s[i])
  }

  /** A string of `[#\w]` characters holds no space. */
  lemma TagCharsHaveNoSpace(s: string)
    requires AllTagChars(s)
    ensures ' ' !in s
  {
    forall i | 0 <= i < |s| ensures s[i] != ' ' {
      assert IsTagChar(s[i]);
    }
  }

  /** `replaceAll("[^#\\w]", "")`: deletes, in place, every character outside
      `[#\w]`; the surviving characters keep their order and the string is
      never split at a deleted character. */
  function Strip(s: string): (r: string)
    ensures |r| <= |s|
    ensures AllTagChars(r)
    ensures forall c :: c in r <==> c in s && IsTagChar(c)
    decreases |s|
  {
    if |s| == 0 then []
    else (if IsTagChar(s[0]) then [s[0]] else []) + Strip(s[1..])
  }

  /** Stripping distributes over concatenation: a deleted character never
      affects its neighbours. */
  lemma {:induction false} StripAppend(a: string, b: string)
    ensures Strip(a + b) == Strip(a) + Strip(b)
    decreases |a|
  {
    if |a| == 0 {
      assert a + b == b;
    } else {
      assert (a + b)[1..] == a[1..] + b;
      StripAppend(a[1..], b);
    }
  }

  /** The strip deletes everything exactly when nothing is in `[#\w]`. */
  lemma StripEmpty(s: string)
    ensures Strip(s) == [] <==> NoTagChars(s)
  {
    if Strip(s) != [] {
      assert Strip(s)[0] in Strip(s);
    }
  }

  /** A string is left unchanged by the strip exactly when it already consists
      of characters of `[#\w]` only. */
  lemma {:induction false} StripFixpoint(s: string)
    ensures Strip(s) == s <==> AllTagChars(s)
    decreases |s|
  {
    if |s| > 0 {
      StripFixpoint(s[1..]);
      if AllTagChars(s) {
        assert AllTagChars(s[1..]) by {
          forall i | 0 <= i < |s[1..]| ensures IsTagChar(s[1..][i]) {
            assert s[1..][i] == s[i + 1];
          }
        }
        assert [s[0]] + s[1..] == s;
      }
    }
  }

  /** Stripping twice deletes nothing more. */
  lemma StripIdempotent(s: string)
    ensures Strip(Strip(s)) == Strip(s)
  {
    StripFixpoint(Strip(s));
  }

  /** A token that starts with the marker still starts with it after the
      strip, because `#` is in the kept class. */
  lemma StripKeepsMarker(s: string)
    ensures |s| > 0 && s[0] == '#' ==> |Strip(s)| > 0 && Strip(s)[0] == '#'
  {
    if |s| > 0 && s[0] == '#' {
      assert Strip(s) == ['#'] + Strip(s[1..]);
    }
  }

  /** ASCII lower-casing of one character; anything other than `A`-`Z` is
      returned as it is. */
  function LowerChar(c: char): (d: char)
    ensures !IsUpper(d)
    ensures IsUpper(c) ==> d as int == c as int + 32 && 'a' <= d <= 'z'
    ensures !IsUpper(c) ==> d == c
  {
    if IsUpper(c) then (c as int + 32) as char else c
  }

  /** `toLowerCase()` restricted to ASCII: the result has the same length,
      maps each upper-case letter to its lower-case partner and leaves every
      other character where it was. */
  function LowerAscii(s: string): (r: string)
    ensures |r| == |s|
    ensures NoUpper(r)
    ensures forall i :: 0 <= i < |s| && !IsUpper(s[i]) ==> r[i] == s[i]
    ensures forall i :: 0 <= i < |s| && IsUpper(s[i]) ==> r[i] as int == s[i] as int + 32
  {
    seq(|s|, i requires 0 <= i < |s| => LowerChar(s[i]))
  }

  /** ASCII lower-casing of a character neither moves it into nor out of
      `[#\w]`. */
  lemma LowerCharKeepsClass(c: char)
    ensures IsTagChar(LowerChar(c)) <==> IsTagChar(c)
  {
  }

  /** Lower-casing is idempotent, and a string is a fixed point exactly when it
      has no upper-case letter. */
  lemma LowerAsciiFixpoint(s: string)
    ensures LowerAscii(LowerAscii(s)) == LowerAscii(s)
    ensures LowerAscii(s) == s <==> NoUpper(s)
  {
    if NoUpper(s) {
      assert LowerAscii(s) == s;
    }
  }

  /** Lower-casing works character by character, so it distributes over
      concatenation. */
  lemma LowerAsciiAppend(a: string, b: string)
    ensures LowerAscii(a + b) == LowerAscii(a) + LowerAscii(b)
  {
  }

  /** For the ASCII model, stripping and lower-casing commute. */
  lemma {:induction false} StripLowerCommute(s: string)
    ensures Strip(LowerAscii(s)) == LowerAscii(Strip(s))
    decreases |s|
  {
    if |s| > 0 {
      var l := LowerAscii(s);
      var c := LowerChar(s[0]);
      assert l[0] == c;
      assert l[1..] == LowerAscii(s[1..]);
      LowerCharKeepsClass(s[0]);
      var head := if IsTagChar(s[0]) then [s[0]] else [];
      var lowHead := if IsTagChar(c) then [c] else [];
      assert LowerAscii(head) == lowHead;
      calc {
        Strip(l);
        lowHead + Strip(l[1..]);
        { StripLowerCommute(s[1..]); }
        lowHead + LowerAscii(Strip(s[1..]));
        { LowerAsciiAppend(head, Strip(s[1..])); }
        LowerAscii(head + Strip(s[1..]));
      }
    }
  }
}

=== FILE: edge_cases.dfy ===
/** The edge cases of the extractor, stated for every token of the shape in
    question: punctuation glued to a tag, a marker with nothing after it,
    letter case, and empty tokens between two spaces. */
module EdgeCases {
  import opened CharClass
  import opened SpaceSplit
  import opened HashTags
  import opened Aggregation

  /** Punctuation after a tag is deleted, not split on: `#crdts,` yields
      `#crdts` (and `#CRDTs,` yields `#crdts` in the lower-casing copy). */
  lemma PunctuationIsDeleted(f: Flavor, word: string, junk: string)
    requires StartsWithMarker(word) && AllTagChars(word)
    requires NoTagChars(junk) && ' ' !in junk
    ensures GetHashTags(f, word + junk) ==
      {HashTag(if f == LowerCasing then LowerAscii(word) else word)}
  {
    TagCharsHaveNoSpace(word);
    assert ' ' !in word + junk by {
      assert forall c :: c in word + junk <==> c in word || c in junk;
    }
    assert StartsWithMarker(word + junk) by {
      assert (word + junk)[0] == word[0];
    }
    GetHashTagsToken(f, word + junk);
    TrailingJunkNormalize(f, word, junk);
  }

  /** A marker followed only by punctuation, such as `#!`, is kept as the
      bare tag `#` rather than discarded. */
  lemma BareMarkerIsKept(f: Flavor, junk: string)
    requires NoTagChars(junk) && ' ' !in junk
    ensures GetHashTags(f, "#" + junk) == {HashTag("#")}
  {
    PunctuationIsDeleted(f, "#", junk);
    LowerAsciiFixpoint("#");
  }

  /** `#!` itself. */
  lemma BareMarkerExample()
    ensures GetHashTags(CasePreserving, "#!") == {HashTag("#")}
  {
    BareMarkerIsKept(CasePreserving, "!");
    assert "#" + "!" == "#!";
  }

  /** An empty token between two spaces contributes nothing. */
  lemma DoubleSpaceContributesNothing(f: Flavor, a: string, b: string)
    ensures GetHashTags(f, a + "  " + b) == GetHashTags(f, a) + GetHashTags(f, b)
  {
    assert a + "  " + b == a + " " + ("" + " " + b);
    GetHashTagsAppend(f, a, "" + " " + b);
    UnmarkedTokenContributesNothing(f, "", b);
    assert "" + " " + b == " " + b;
  }

  /** In the lower-casing copy two tokens of one text that differ only in
      ASCII letter case, such as `#akka` and `#Akka`, give a single tag. */
  lemma CaseCollapsesInOneText(a: string, b: string)
    requires ' ' !in a && ' ' !in b
    requires StartsWithMarker(a) && StartsWithMarker(b)
    requires LowerAscii(a) == LowerAscii(b)
    ensures GetHashTags(LowerCasing, a + " " + b) == {HashTag(Normalize(LowerCasing, a))}
  {
    GetHashTagsAppend(LowerCasing, a, b);
    GetHashTagsToken(LowerCasing, a);
    GetHashTagsToken(LowerCasing, b);
    LowerCasingIgnoresCase(a, b);
  }

  /** The tags of a tweet whose text is one marked token. */
  lemma SingleTokenTweetTags(f: Flavor, t: Tweet)
    requires ' ' !in t.text && StartsWithMarker(t.text)
    ensures TweetHashTags(f, t) == {HashTag(Normalize(f, t.text))}
  {
    GetHashTagsToken(f, t.text);
  }

  /** The same collapse across two tweets of the stream: the aggregate holds
      one tag. */
  lemma CaseCollapsesAcrossTweets(t: Tweet, u: Tweet)
    requires ' ' !in t.text && ' ' !in u.text
    requires StartsWithMarker(t.text) && StartsWithMarker(u.text)
    requires LowerAscii(t.text) == LowerAscii(u.text)
    ensures Aggregate(LowerCasing, [t, u]) == Some({HashTag(Normalize(LowerCasing, t.text))})
  {
    SingleTokenTweetTags(LowerCasing, t);
    SingleTokenTweetTags(LowerCasing, u);
    LowerCasingIgnoresCase(t.text, u.text);
    AggregatePair(LowerCasing, t, u);
    var tag := HashTag(Normalize(LowerCasing, t.text));
    assert {tag} + {tag} == {tag};
  }

  /** In the case-preserving copy, two clean tags that differ (only in case,
      say `#Spring` and `#spring`) stay two tags. */
  lemma CaseKeptApart(a: string, b: string)
    requires StartsWithMarker(a) && AllTagChars(a)
    requires StartsWithMarker(b) && AllTagChars(b)
    requires a != b
    ensures GetHashTags(CasePreserving, a + " " + b) == {HashTag(a), HashTag(b)}
    ensures |GetHashTags(CasePreserving, a + " " + b)| == 2
  {
    TagCharsHaveNoSpace(a);
    TagCharsHaveNoSpace(b);
    GetHashTagsAppend(CasePreserving, a, b);
    GetHashTagsToken(CasePreserving, a);
    GetHashTagsToken(CasePreserving, b);
    CleanTokenNormalize(CasePreserving, a);
    CleanTokenNormalize(CasePreserving, b);
    var tags := GetHashTags(CasePreserving, a + " " + b);
    assert tags == {HashTag(a)} + {HashTag(b)};
    assert HashTag(a) != HashTag(b);
  }
}

=== FILE: hashtags.dfy ===
/** The records of the tweet services and `Tweet.getHashTags`, in both of the
    repository's copies: the tweet-service copy keeps the letter case of a tag,
    the reactive-akka-streams copy lower-cases it after the strip. */
module HashTags {
  import opened CharClass
  import opened SpaceSplit

  /** Which copy of `getHashTags` is meant. */
  datatype Flavor =
    | CasePreserving  // tweet-service
    | LowerCasing     // reactive-akka-streams

  datatype Author = Author(handle: string)

  datatype Tweet = Tweet(text: string, author: Author)

  /** A tag; as a Lombok `@Data` class, two tags are equal exactly when their
      `tag` strings are, which is datatype equality here. */
  datatype HashTag = HashTag(tag: string)

  /** The filter `startsWith("#")`. */
  predicate StartsWithMarker(s: string) {
    |s| > 0 && s[0] == '#'
  }

  /** What every extracted tag looks like: it starts with `#`, uses only
      `[#A-Za-z0-9_]`, and in the lower-casing copy has no upper-case letter. */
  predicate IsNormalTag(f: Flavor, s: string) {
    && StartsWithMarker(s)
    && AllTagChars(s)
    && (f == LowerCasing ==> NoUpper(s))
  }

  /** The `map` step applied to one kept token: strip, then (in the
      reactive-akka-streams copy) lower-case. */
  function Normalize(f: Flavor, token: string): (tag: string)
    ensures StartsWithMarker(token) ==> StartsWithMarker(tag)
    ensures AllTagChars(tag)
    ensures f == LowerCasing ==> NoUpper(tag)
    ensures |tag| <= |token|
  {
    var stripped := Strip(token);
    StripKeepsMarker(token);
    if f == LowerCasing then
      assert forall i :: 0 <= i < |stripped| ==> IsTagChar(LowerAscii(stripped)[i]) by {
        forall i | 0 <= i < |stripped| ensures IsTagChar(LowerAscii(stripped)[i]) {
          LowerCharKeepsClass(stripped[i]);
        }
      }
      LowerAscii(stripped)
    else stripped
  }

  /** `Tweet.getHashTags` on the tweet's text: split on single spaces, keep
      the tokens starting with `#`, normalise each, collect into a set. */
  function GetHashTags(f: Flavor, text: string): (tags: set<HashTag>)
    ensures forall h :: h in tags ==> IsNormalTag(f, h.tag)
  {
    set t | t in Split(text) && StartsWithMarker(t) :: HashTag(Normalize(f, t))
  }

  /** `Tweet::getHashTags` applied to a tweet: every tag is a normal tag of
      the copy. */
  function TweetHashTags(f: Flavor, tweet: Tweet): (tags: set<HashTag>)
    ensures forall h :: h in tags ==> IsNormalTag(f, h.tag)
  {
    GetHashTags(f, tweet.text)
  }

  /** The tags contributed by a sequence of space-free pieces. */
  function PieceTags(f: Flavor, pieces: seq<string>): set<HashTag> {
    set t | t in pieces && StartsWithMarker(t) :: HashTag(Normalize(f, t))
  }

  /** Java's dropping of trailing empty strings never changes the tag set:
      the tags are those of the raw cut at every space. */
  lemma GetHashTagsRaw(f: Flavor, text: string)
    ensures GetHashTags(f, text) == PieceTags(f, RawSplit(text))
  {
    forall t | StartsWithMarker(t)
      ensures t in Split(text) <==> t in RawSplit(text)
    {
      SplitNonEmptyPieces(text, t);
    }
  }

  /** Every extracted tag comes from a space-delimited stretch of the text
      that starts with `#`. */
  lemma TagFromStretch(f: Flavor, text: string, h: HashTag)
    requires h in GetHashTags(f, text)
    ensures exists i, j :: 0 <= i < j <= |text| && IsPieceAt(text, i, j) && text[i] == '#'
                           && h.tag == Normalize(f, text[i..j])
  {
    GetHashTagsRaw(f, text);
    var t :| t in RawSplit(text) && StartsWithMarker(t) && h == HashTag(Normalize(f, t));
    RawSplitPieceAt(text, t);
    var i, j :| 0 <= i <= j <= |text| && IsPieceAt(text, i, j) && t == text[i..j];
    assert |t| == j - i > 0;
    assert text[i] == t[0];
  }

  /** Every space-delimited stretch of the text that starts with `#` gives
      its normal form as a tag. */
  lemma StretchGivesTag(f: Flavor, text: string, i: int, j: int)
    requires 0 <= i < j <= |text| && IsPieceAt(text, i, j) && text[i] == '#'
    ensures HashTag(Normalize(f, text[i..j])) in GetHashTags(f, text)
  {
    GetHashTagsRaw(f, text);
    PieceAtInRawSplit(text, i, j);
    assert StartsWithMarker(text[i..j]);
  }

  /** The tags of a text are exactly the normalised forms of its
      space-delimited stretches that start with `#`. */
  lemma GetHashTagsIff(f: Flavor, text: string, h: HashTag)
    ensures h in GetHashTags(f, text) <==>
      exists i, j :: 0 <= i < j <= |text| && IsPieceAt(text, i, j) && text[i] == '#'
                     && h.tag == Normalize(f, text[i..j])
  {
    if h in GetHashTags(f, text) {
      TagFromStretch(f, text, h);
    }
    if exists i, j :: 0 <= i < j <= |text| && IsPieceAt(text, i, j) && text[i] == '#'
                      && h.tag == Normalize(f, text[i..j]) {
      var i, j :| 0 <= i < j <= |text| && IsPieceAt(text, i, j) && text[i] == '#'
                  && h.tag == Normalize(f, text[i..j]);
      StretchGivesTag(f, text, i, j);
    }
  }

  /** A text without the marker character has no tags. */
  lemma NoMarkerNoTags(f: Flavor, text: string)
    requires '#' !in text
    ensures GetHashTags(f, text) == {}
  {
    forall h | h in GetHashTags(f, text) ensures false {
      GetHashTagsIff(f, text, h);
    }
  }

  /** The tags of two texts joined by a space are the union of their tags. */
  lemma {:induction false} GetHashTagsAppend(f: Flavor, a: string, b: string)
    ensures GetHashTags(f, a + " " + b) == GetHashTags(f, a) + GetHashTags(f, b)
  {
    GetHashTagsRaw(f, a + " " + b);
    GetHashTagsRaw(f, a);
    GetHashTagsRaw(f, b);
    RawSplitAppend(a, b);
    var pa, pb := RawSplit(a), RawSplit(b);
    assert forall t :: t in pa + pb <==> t in pa || t in pb;
  }

  /** A text has no tags exactly when none of its split tokens starts with
      `#`. */
  lemma NoMarkedTokenIffNoTags(f: Flavor, text: string)
    ensures GetHashTags(f, text) == {} <==>
      forall t :: t in Split(text) ==> !StartsWithMarker(t)
  {
    if exists t :: t in Split(text) && StartsWithMarker(t) {
      var t :| t in Split(text) && StartsWithMarker(t);
      assert HashTag(Normalize(f, t)) in GetHashTags(f, text);
    }
  }

  /** A single space-free token yields its normalised form when it starts
      with `#`, and nothing otherwise. */
  lemma GetHashTagsToken(f: Flavor, token: string)
    requires ' ' !in token
    ensures GetHashTags(f, token) ==
      (if StartsWithMarker(token) then {HashTag(Normalize(f, token))} else {})
  {
    assert Split(token) == [token];
  }

  /** A space-free token that does not start with `#` (a mention, `$$`, an
      empty token between two spaces) contributes nothing. */
  lemma UnmarkedTokenContributesNothing(f: Flavor, token: string, rest: string)
    requires ' ' !in token && !StartsWithMarker(token)
    ensures GetHashTags(f, token + " " + rest) == GetHashTags(f, rest)
  {
    GetHashTagsAppend(f, token, rest);
    GetHashTagsToken(f, token);
  }

  /** A token is its own normal form exactly when it already looks like a tag
      of that copy (all of `[#\w]`, and lower-case for the lower-casing copy). */
  lemma NormalizeFixpoint(f: Flavor, token: string)
    ensures Normalize(f, token) == token <==>
      AllTagChars(token) && (f == LowerCasing ==> NoUpper(token))
  {
    StripFixpoint(token);
    LowerAsciiFixpoint(token);
  }

  /** Normalising is idempotent. */
  lemma NormalizeIdempotent(f: Flavor, token: string)
    ensures Normalize(f, Normalize(f, token)) == Normalize(f, token)
  {
    NormalizeFixpoint(f, Normalize(f, token));
  }

  /** Extracting from a text that is already a normalised tag returns exactly
      that tag. */
  lemma NormalTagExtractsItself(f: Flavor, tag: string)
    requires IsNormalTag(f, tag)
    ensures GetHashTags(f, tag) == {HashTag(tag)}
  {
    TagCharsHaveNoSpace(tag);
    GetHashTagsToken(f, tag);
    NormalizeFixpoint(f, tag);
  }

  /** In the lower-casing copy, tokens that differ only in ASCII letter case give
      the same tag. */
  lemma LowerCasingIgnoresCase(a: string, b: string)
    requires LowerAscii(a) == LowerAscii(b)
    ensures Normalize(LowerCasing, a) == Normalize(LowerCasing, b)
  {
    StripLowerCommute(a);
    StripLowerCommute(b);
  }

  /** In the case-preserving copy, tokens already in `[#\w]` give equal tags
      exactly when they are equal strings: `#Spring` and `#spring` stay apart. */
  lemma CasePreservingKeepsCase(a: string, b: string)
    requires AllTagChars(a) && AllTagChars(b)
    ensures Normalize(CasePreserving, a) == Normalize(CasePreserving, b) <==> a == b
  {
    StripFixpoint(a);
    StripFixpoint(b);
  }

  /** The tags named by a list of tag strings. */
  function TagsOf(tags: seq<string>): (r: set<HashTag>)
    ensures forall h :: h in r <==> h.tag in tags
  {
    if |tags| == 0 then {} else {HashTag(tags[0])} + TagsOf(tags[1..])
  }

  /** The tags of two lists are the tags of their concatenation. */
  lemma TagsOfAppend(a: seq<string>, b: seq<string>)
    ensures TagsOf(a + b) == TagsOf(a) + TagsOf(b)
  {
    assert forall t :: t in a + b <==> t in a || t in b;
  }

  /** Lists naming the same strings name the same tags. */
  lemma TagsOfSameElements(a: seq<string>, b: seq<string>)
    requires forall t :: t in a <==> t in b
    ensures TagsOf(a) == TagsOf(b)
  {
    assert forall h :: h in TagsOf(a) <==> h in TagsOf(b);
  }

  /** Every tag of space-free words is named in `tags`. */
  lemma WordTagsListed(f: Flavor, words: seq<string>, marked: seq<string>, tags: seq<string>)
    requires forall t :: t in words && StartsWithMarker(t) ==> t in marked
    requires |tags| == |marked|
    requires forall i :: 0 <= i < |marked| ==> Normalize(f, marked[i]) == tags[i]
    ensures PieceTags(f, words) <= TagsOf(tags)
  {
    forall h | h in PieceTags(f, words) ensures h in TagsOf(tags) {
      var t :| t in words && StartsWithMarker(t) && h == HashTag(Normalize(f, t));
      var i :| 0 <= i < |marked| && marked[i] == t;
      assert tags[i] in tags;
    }
  }

  /** Every tag named in `tags` is a tag of the words. */
  lemma ListedTagsOfWords(f: Flavor, words: seq<string>, marked: seq<string>, tags: seq<string>)
    requires forall t :: t in marked ==> t in words && StartsWithMarker(t)
    requires |tags| == |marked|
    requires forall i :: 0 <= i < |marked| ==> Normalize(f, marked[i]) == tags[i]
    ensures TagsOf(tags) <= PieceTags(f, words)
  {
    forall h | h in TagsOf(tags) ensures h in PieceTags(f, words) {
      var i :| 0 <= i < |tags| && tags[i] == h.tag;
      assert marked[i] in marked;
    }
  }

  /** The tags of a text written as its space-separated words are the
      normalised forms of the words that start with `#`; `marked` lists those
      words and `tags` their normal forms. */
  lemma JoinedWordsTags(f: Flavor, words: seq<string>, marked: seq<string>, tags: seq<string>)
    requires |words| >= 1
    requires forall k :: 0 <= k < |words| ==> ' ' !in words[k]
    requires forall t :: t in words && StartsWithMarker(t) <==> t in marked
    requires |tags| == |marked|
    requires forall i :: 0 <= i < |marked| ==> Normalize(f, marked[i]) == tags[i]
    ensures GetHashTags(f, Join(words)) == TagsOf(tags)
  {
    GetHashTagsRaw(f, Join(words));
    RawSplitJoin(words);
    WordTagsListed(f, words, marked, tags);
    ListedTagsOfWords(f, words, marked, tags);
  }

  /** A token made of `[#\w]` characters followed by punctuation loses the
      punctuation and is then only lower-cased, if at all. */
  lemma TrailingJunkNormalize(f: Flavor, word: string, junk: string)
    requires AllTagChars(word) && NoTagChars(junk)
    ensures Normalize(f, word + junk) == if f == LowerCasing then LowerAscii(word) else word
  {
    StripAppend(word, junk);
    StripFixpoint(word);
    StripEmpty(junk);
    assert Strip(word + junk) == word;
  }

  /** The normal forms of a list of marked tokens, each written as a clean
      word followed by punctuation. */
  lemma NormalForms(f: Flavor, marked: seq<string>, words: seq<string>, junk: seq<string>, tags: seq<string>)
    requires |words| == |marked| && |junk| == |marked| && |tags| == |marked|
    requires forall i :: 0 <= i < |marked| ==> marked[i] == words[i] + junk[i]
    requires forall i :: 0 <= i < |marked| ==> AllTagChars(words[i]) && NoTagChars(junk[i])
    requires forall i :: 0 <= i < |marked| ==>
      tags[i] == if f == LowerCasing then LowerAscii(words[i]) else words[i]
    ensures forall i :: 0 <= i < |marked| ==> Normalize(f, marked[i]) == tags[i]
  {
    forall i | 0 <= i < |marked| ensures Normalize(f, marked[i]) == tags[i] {
      TrailingJunkNormalize(f, words[i], junk[i]);
    }
  }

  /** A token already made of `[#\w]` is only lower-cased, if at all. */
  lemma CleanTokenNormalize(f: Flavor, token: string)
    requires AllTagChars(token)
    ensures Normalize(f, token) == if f == LowerCasing then LowerAscii(token) else token
  {
    TrailingJunkNormalize(f, token, "");
    assert token + "" == token;
  }
}

=== FILE: seeds.dfy ===
/** The six tweets each application saves at start-up, and the tag set the
    `hashtags()` pipeline reduces them to. Each text is written as the list of
    its space-separated words rejoined with single spaces, which is the same
    string; `SpaceSplit.RawSplitJoin` shows the split recovers exactly those
    words. */
module Seeds {
  import opened CharClass
  import opened SpaceSplit
  import opened HashTags
  import opened Aggregation

  const Viktor := Author("viktorklang")
  const Jonas := Author("jboner")
  const Josh := Author("starbuxman")

  /** The words of the six tweets `TweetWriter.run` saves in tweet-service. */
  const ServiceSeedWords: seq<seq<string>> := [
    ["woot,", "konrad", "will", "be", "talking", "#enterprise", "#integration", "done", "right!", "#akka", "#alpakka"],
    ["#scala", "implicits", "can", "easily", "be", "used", "to", "model", "capabilities,", "but", "can", "they", "encode", "obligations", "easily?", "\n\n*", "Easy", "in", "ergonomically?"],
    ["this", "is", "so", "cool!", "#akka"],
    ["cross", "data", "center", "replication", "of", "event", "sourced", "#akka", "actors", "is", "soon", "available", "(using", "#crdts", "and", "more!)"],
    ["a", "reminder:", "@SpringBoot", "lets", "you", "pair", "program", "with", "the", "#Spring", "team"],
    ["whatever", "your", "next", "platform", "is,", "don't", "build", "it", "yourself.\n\n", "Even", "companies", "with", "the", "$$", "and", "motivation", "to", "do", "it", "fail.", "a", "LOT"]
  ]

  const ServiceSeedTweets: seq<Tweet> := [
    Tweet(Join(ServiceSeedWords[0]), Viktor),
    Tweet(Join(ServiceSeedWords[1]), Viktor),
    Tweet(Join(ServiceSeedWords[2]), Viktor),
    Tweet(Join(ServiceSeedWords[3]), Jonas),
    Tweet(Join(ServiceSeedWords[4]), Josh),
    Tweet(Join(ServiceSeedWords[5]), Josh)
  ]

  /** The words of each seed tweet that start with `#`. */
  const ServiceSeedMarked: seq<seq<string>> := [["#enterprise", "#integration", "#akka", "#alpakka"], ["#scala"], ["#akka"], ["#akka", "#crdts"], ["#Spring"], []]

  /** The normal forms of those words: the tags of each seed tweet. */
  const ServiceSeedTagLists: seq<seq<string>> := [["#enterprise", "#integration", "#akka", "#alpakka"], ["#scala"], ["#akka"], ["#akka", "#crdts"], ["#Spring"], []]

  /** The tags the `hashtags()` stream emits over the seed tweets. */
  const ServiceSeedTags: seq<string> := ["#enterprise", "#integration", "#akka", "#alpakka", "#scala", "#crdts", "#Spring"]

  lemma ServiceNoSpaceInWords0()
    ensures forall k :: 0 <= k < |ServiceSeedWords[0]| ==> ' ' !in ServiceSeedWords[0][k]
  {
  }

  lemma ServiceMarkedWords0()
    ensures forall t :: t in ServiceSeedWords[0] && StartsWithMarker(t) <==> t in ServiceSeedMarked[0]
  {
  }

  lemma ServiceNormalForms0()
    ensures |ServiceSeedTagLists[0]| == |ServiceSeedMarked[0]|
    ensures forall j :: 0 <= j < |ServiceSeedMarked[0]| ==> Normalize(CasePreserving, ServiceSeedMarked[0][j]) == ServiceSeedTagLists[0][j]
  {
    NormalForms(CasePreserving, ServiceSeedMarked[0], ["#enterprise", "#integration", "#akka", "#alpakka"], ["", "", "", ""], ServiceSeedTagLists[0]);
  }

  /** The tags of seed tweet 0. */
  lemma ServiceTweetTags0()
    ensures TweetHashTags(CasePreserving, ServiceSeedTweets[0]) == TagsOf(ServiceSeedTagLists[0])
  {
    ServiceNoSpaceInWords0();
    ServiceMarkedWords0();
    ServiceNormalForms0();
    JoinedWordsTags(CasePreserving, ServiceSeedWords[0], ServiceSeedMarked[0], ServiceSeedTagLists[0]);
  }

  lemma ServiceNoSpaceInWords1()
    ensures forall k :: 0 <= k < |ServiceSeedWords[1]| ==> ' ' !in ServiceSeedWords[1][k]
  {
  }

  lemma ServiceMarkedWords1()
    ensures forall t :: t in ServiceSeedWords[1] && StartsWithMarker(t) <==> t in ServiceSeedMarked[1]
  {
  }

  lemma ServiceNormalForms1()
    ensures |ServiceSeedTagLists[1]| == |ServiceSeedMarked[1]|
    ensures forall j :: 0 <= j < |ServiceSeedMarked[1]| ==> Normalize(CasePreserving, ServiceSeedMarked[1][j]) == ServiceSeedTagLists[1][j]
  {
    NormalForms(CasePreserving, ServiceSeedMarked[1], ["#scala"], [""], ServiceSeedTagLists[1]);
  }

  /** The tags of seed tweet 1. */
  lemma ServiceTweetTags1()
    ensures TweetHashTags(CasePreserving, ServiceSeedTweets[1]) == TagsOf(ServiceSeedTagLists[1])
  {
    ServiceNoSpaceInWords1();
    ServiceMarkedWords1();
    ServiceNormalForms1();
    JoinedWordsTags(CasePreserving, ServiceSeedWords[1], ServiceSeedMarked[1], ServiceSeedTagLists[1]);
  }

  lemma ServiceNoSpaceInWords2()
    ensures forall k :: 0 <= k < |ServiceSeedWords[2]| ==> ' ' !in ServiceSeedWords[2][k]
  {
  }

  lemma ServiceMarkedWords2()
    ensures forall t :: t in ServiceSeedWords[2] && StartsWithMarker(t) <==> t in ServiceSeedMarked[2]
  {
  }

  lemma ServiceNormalForms2()
    ensures |ServiceSeedTagLists[2]| == |ServiceSeedMarked[2]|
    ensures forall j :: 0 <= j < |ServiceSeedMarked[2]| ==> Normalize(CasePreserving, ServiceSeedMarked[2][j]) == ServiceSeedTagLists[2][j]
  {
    NormalForms(CasePreserving, ServiceSeedMarked[2], ["#akka"], [""], ServiceSeedTagLists[2]);
  }

  /** The tags of seed tweet 2. */
  lemma ServiceTweetTags2()
    ensures TweetHashTags(CasePreserving, ServiceSeedTweets[2]) == TagsOf(ServiceSeedTagLists[2])
  {
    ServiceNoSpaceInWords2();
    ServiceMarkedWords2();
    ServiceNormalForms2();
    JoinedWordsTags(CasePreserving, ServiceSeedWords[2], ServiceSeedMarked[2], ServiceSeedTagLists[2]);
  }

  lemma ServiceNoSpaceInWords3()
    ensures forall k :: 0 <= k < |ServiceSeedWords[3]| ==> ' ' !in ServiceSeedWords[3][k]
  {
  }

  lemma ServiceMarkedWords3()
    ensures forall t :: t in ServiceSeedWords[3] && StartsWithMarker(t) <==> t in ServiceSeedMarked[3]
  {
  }

  lemma ServiceNormalForms3()
    ensures |ServiceSeedTagLists[3]| == |ServiceSeedMarked[3]|
    ensures forall j :: 0 <= j < |ServiceSeedMarked[3]| ==> Normalize(CasePreserving, ServiceSeedMarked[3][j]) == ServiceSeedTagLists[3][j]
  {
    NormalForms(CasePreserving, ServiceSeedMarked[3], ["#akka", "#crdts"], ["", ""], ServiceSeedTagLists[3]);
  }

  /** The tags of seed tweet 3. */
  lemma ServiceTweetTags3()
    ensures TweetHashTags(CasePreserving, ServiceSeedTweets[3]) == TagsOf(ServiceSeedTagLists[3])
  {
    ServiceNoSpaceInWords3();
    ServiceMarkedWords3();
    ServiceNormalForms3();
    JoinedWordsTags(CasePreserving, ServiceSeedWords[3], ServiceSeedMarked[3], ServiceSeedTagLists[3]);
  }

  lemma ServiceNoSpaceInWords4()
    ensures forall k :: 0 <= k < |ServiceSeedWords[4]| ==> ' ' !in ServiceSeedWords[4][k]
  {
  }

  lemma ServiceMarkedWords4()
    ensures forall t :: t in ServiceSeedWords[4] && StartsWithMarker(t) <==> t in ServiceSeedMarked[4]
  {
  }

  lemma ServiceNormalForms4()
    ensures |ServiceSeedTagLists[4]| == |ServiceSeedMarked[4]|
    ensures forall j :: 0 <= j < |ServiceSeedMarked[4]| ==> Normalize(CasePreserving, ServiceSeedMarked[4][j]) == ServiceSeedTagLists[4][j]
  {
    NormalForms(CasePreserving, ServiceSeedMarked[4], ["#Spring"], [""], ServiceSeedTagLists[4]);
  }

  /** The tags of seed tweet 4. */
  lemma ServiceTweetTags4()
    ensures TweetHashTags(CasePreserving, ServiceSeedTweets[4]) == TagsOf(ServiceSeedTagLists[4])
  {
    ServiceNoSpaceInWords4();
    ServiceMarkedWords4();
    ServiceNormalForms4();
    JoinedWordsTags(CasePreserving, ServiceSeedWords[4], ServiceSeedMarked[4], ServiceSeedTagLists[4]);
  }

  lemma ServiceNoSpaceInWords5()
    ensures forall k :: 0 <= k < |ServiceSeedWords[5]| ==> ' ' !in ServiceSeedWords[5][k]
  {
  }

  lemma ServiceMarkedWords5()
    ensures forall t :: t in ServiceSeedWords[5] && StartsWithMarker(t) <==> t in ServiceSeedMarked[5]
  {
  }

  lemma ServiceNormalForms5()
    ensures |ServiceSeedTagLists[5]| == |ServiceSeedMarked[5]|
    ensures forall j :: 0 <= j < |ServiceSeedMarked[5]| ==> Normalize(CasePreserving, ServiceSeedMarked[5][j]) == ServiceSeedTagLists[5][j]
  {
    NormalForms(CasePreserving, ServiceSeedMarked[5], [], [], ServiceSeedTagLists[5]);
  }

  /** The tags of seed tweet 5. */
  lemma ServiceTweetTags5()
    ensures TweetHashTags(CasePreserving, ServiceSeedTweets[5]) == TagsOf(ServiceSeedTagLists[5])
  {
    ServiceNoSpaceInWords5();
    ServiceMarkedWords5();
    ServiceNormalForms5();
    JoinedWordsTags(CasePreserving, ServiceSeedWords[5], ServiceSeedMarked[5], ServiceSeedTagLists[5]);
  }

  /** The aggregate of the first 1 seed tweets. */
  lemma ServicePrefixAggregate1()
    ensures Aggregate(CasePreserving, ServiceSeedTweets[..1]) == Some(TagsOf(ServiceSeedTagLists[0]))
  {
    ServiceTweetTags0();
    AggregateFirst(CasePreserving, ServiceSeedTweets);
  }

  /** The aggregate of the first 2 seed tweets. */
  lemma ServicePrefixAggregate2()
    ensures Aggregate(CasePreserving, ServiceSeedTweets[..2]) == Some(TagsOf(ServiceSeedTagLists[0] + ServiceSeedTagLists[1]))
  {
    ServiceTweetTags1();
    ServicePrefixAggregate1();
    AggregateSnoc(CasePreserving, ServiceSeedTweets, 1);
    TagsOfAppend(ServiceSeedTagLists[0], ServiceSeedTagLists[1]);
  }

  /** The aggregate of the first 3 seed tweets. */
  lemma ServicePrefixAggregate3()
    ensures Aggregate(CasePreserving, ServiceSeedTweets[..3]) == Some(TagsOf(ServiceSeedTagLists[0] + ServiceSeedTagLists[1] + ServiceSeedTagLists[2]))
  {
    ServiceTweetTags2();
    ServicePrefixAggregate2();
    AggregateSnoc(CasePreserving, ServiceSeedTweets, 2);
    TagsOfAppend(ServiceSeedTagLists[0] + ServiceSeedTagLists[1], ServiceSeedTagLists[2]);
  }

  /** The aggregate of the first 4 seed tweets. */
  lemma ServicePrefixAggregate4()
    ensures Aggregate(CasePreserving, ServiceSeedTweets[..4]) == Some(TagsOf(ServiceSeedTagLists[0] + ServiceSeedTagLists[1] + ServiceSeedTagLists[2] + ServiceSeedTagLists[3]))
  {
    ServiceTweetTags3();
    ServicePrefixAggregate3();
    AggregateSnoc(CasePreserving, ServiceSeedTweets, 3);
    TagsOfAppend(ServiceSeedTagLists[0] + ServiceSeedTagLists[1] + ServiceSeedTagLists[2], ServiceSeedTagLists[3]);
  }

  /** The aggregate of the first 5 seed tweets. */
  lemma ServicePrefixAggregate5()
    ensures Aggregate(CasePreserving, ServiceSeedTweets[..5]) == Some(TagsOf(ServiceSeedTagLists[0] + ServiceSeedTagLists[1] + ServiceSeedTagLists[2] + ServiceSeedTagLists[3] + ServiceSeedTagLists[4]))
  {
    ServiceTweetTags4();
    ServicePrefixAggregate4();
    AggregateSnoc(CasePreserving, ServiceSeedTweets, 4);
    TagsOfAppend(ServiceSeedTagLists[0] + ServiceSeedTagLists[1] + ServiceSeedTagLists[2] + ServiceSeedTagLists[3], ServiceSeedTagLists[4]);
  }

  /** The aggregate of the first 6 seed tweets. */
  lemma ServicePrefixAggregate6()
    ensures Aggregate(CasePreserving, ServiceSeedTweets[..6]) == Some(TagsOf(ServiceSeedTagLists[0] + ServiceSeedTagLists[1] + ServiceSeedTagLists[2] + ServiceSeedTagLists[3] + ServiceSeedTagLists[4] + ServiceSeedTagLists[5]))
  {
    ServiceTweetTags5();
    ServicePrefixAggregate5();
    AggregateSnoc(CasePreserving, ServiceSeedTweets, 5);
    TagsOfAppend(ServiceSeedTagLists[0] + ServiceSeedTagLists[1] + ServiceSeedTagLists[2] + ServiceSeedTagLists[3] + ServiceSeedTagLists[4], ServiceSeedTagLists[5]);
  }

  /** Every tag of a seed tweet is listed, and every listed tag belongs to a seed tweet. */
  lemma ServiceSeedTagsListed()
    ensures forall t :: t in ServiceSeedTagLists[0] + ServiceSeedTagLists[1] + ServiceSeedTagLists[2] + ServiceSeedTagLists[3] + ServiceSeedTagLists[4] + ServiceSeedTagLists[5] <==> t in ServiceSeedTags
  {
    forall t | t in ServiceSeedTagLists[0] + ServiceSeedTagLists[1] + ServiceSeedTagLists[2] + ServiceSeedTagLists[3] + ServiceSeedTagLists[4] + ServiceSeedTagLists[5] ensures t in ServiceSeedTags {
      if t in ServiceSeedTagLists[0] {}
      else if t in ServiceSeedTagLists[1] {}
      else if t in ServiceSeedTagLists[2] {}
      else if t in ServiceSeedTagLists[3] {}
      else if t in ServiceSeedTagLists[4] {}
    }
    forall j | 0 <= j < |ServiceSeedTags| ensures ServiceSeedTags[j] in ServiceSeedTagLists[0] + ServiceSeedTagLists[1] + ServiceSeedTagLists[2] + ServiceSeedTagLists[3] + ServiceSeedTagLists[4] + ServiceSeedTagLists[5] {
      if j == 0 { assert ServiceSeedTags[j] in ServiceSeedTagLists[0]; }
      else if j == 1 { assert ServiceSeedTags[j] in ServiceSeedTagLists[0]; }
      else if j == 2 { assert ServiceSeedTags[j] in ServiceSeedTagLists[0]; }
      else if j == 3 { assert ServiceSeedTags[j] in ServiceSeedTagLists[0]; }
      else if j == 4 { assert ServiceSeedTags[j] in ServiceSeedTagLists[1]; }
      else if j == 5 { assert ServiceSeedTags[j] in ServiceSeedTagLists[3]; }
      else { assert ServiceSeedTags[j] in ServiceSeedTagLists[4]; }
    }
  }

  lemma ServiceSeedTagsOf()
    ensures TagsOf(ServiceSeedTagLists[0] + ServiceSeedTagLists[1] + ServiceSeedTagLists[2] + ServiceSeedTagLists[3] + ServiceSeedTagLists[4] + ServiceSeedTagLists[5]) == TagsOf(ServiceSeedTags)
  {
    ServiceSeedTagsListed();
    TagsOfSameElements(ServiceSeedTagLists[0] + ServiceSeedTagLists[1] + ServiceSeedTagLists[2] + ServiceSeedTagLists[3] + ServiceSeedTagLists[4] + ServiceSeedTagLists[5], ServiceSeedTags);
  }

  /** The aggregate of the seed tweets is exactly the listed tags. */
  lemma ServiceSeedAggregate()
    ensures Aggregate(CasePreserving, ServiceSeedTweets) == Some(TagsOf(ServiceSeedTags))
  {
    ServicePrefixAggregate6();
    assert |ServiceSeedTweets| == 6;
    assert ServiceSeedTweets[..6] == ServiceSeedTweets;
    ServiceSeedTagsOf();
  }

  /** The words of the six tweets `DataRunner.run` saves in reactive-akka-streams. */
  const DemoSeedWords: seq<seq<string>> := [
    ["Woot,", "Konrad", "will", "be", "talking", "about", "#Enterprise", "#Integration", "done", "right!", "#akka", "#alpakka"],
    ["#scala", "implicits", "can", "easily", "be", "used", "to", "model", "Capabilities,", "but", "can", "they", "encode", "Obligations", "easily?\n\n*", "Easy", "as", "in:", "ergonomically."],
    ["This", "is", "so", "cool!", "#akka"],
    ["Cross", "Data", "Center", "replication", "of", "Event", "Sourced", "#Akka", "Actors", "is", "soon", "available", "(using", "#CRDTs,", "and", "more)."],
    ["a", "reminder:", "@SpringBoot", "lets", "you", "pair-program", "with", "the", "#Spring", "team."],
    ["whatever", "your", "next", "#platform", "is,", "don't", "build", "it", "yourself.", "\n\nEven", "companies", "with", "the", "$$", "and", "motivation", "to", "do", "it", "fail.", "a", "LOT."]
  ]

  const DemoSeedTweets: seq<Tweet> := [
    Tweet(Join(DemoSeedWords[0]), Viktor),
    Tweet(Join(DemoSeedWords[1]), Viktor),
    Tweet(Join(DemoSeedWords[2]), Viktor),
    Tweet(Join(DemoSeedWords[3]), Jonas),
    Tweet(Join(DemoSeedWords[4]), Josh),
    Tweet(Join(DemoSeedWords[5]), Josh)
  ]

  /** The words of each seed tweet that start with `#`. */
  const DemoSeedMarked: seq<seq<string>> := [["#Enterprise", "#Integration", "#akka", "#alpakka"], ["#scala"], ["#akka"], ["#Akka", "#CRDTs,"], ["#Spring"], ["#platform"]]

  /** The normal forms of those words: the tags of each seed tweet. */
  const DemoSeedTagLists: seq<seq<string>> := [["#enterprise", "#integration", "#akka", "#alpakka"], ["#scala"], ["#akka"], ["#akka", "#crdts"], ["#spring"], ["#platform"]]

  /** The tags the `hashtags()` stream emits over the seed tweets. */
  const DemoSeedTags: seq<string> := ["#enterprise", "#integration", "#akka", "#alpakka", "#scala", "#crdts", "#spring", "#platform"]

  lemma DemoNoSpaceInWords0()
    ensures forall k :: 0 <= k < |DemoSeedWords[0]| ==> ' ' !in DemoSeedWords[0][k]
  {
  }

  lemma DemoMarkedWords0()
    ensures forall t :: t in DemoSeedWords[0] && StartsWithMarker(t) <==> t in DemoSeedMarked[0]
  {
  }

  /** The lower-cased forms of the clean words of seed tweet 0. */
  lemma DemoLowered0()
    ensures LowerAscii("#Enterprise") == "#enterprise"
    ensures LowerAscii("#Integration") == "#integration"
    ensures LowerAscii("#akka") == "#akka"
    ensures LowerAscii("#alpakka") == "#alpakka"
  {
  }

  lemma DemoNormalForms0()
    ensures |DemoSeedTagLists[0]| == |DemoSeedMarked[0]|
    ensures forall j :: 0 <= j < |DemoSeedMarked[0]| ==> Normalize(LowerCasing, DemoSeedMarked[0][j]) == DemoSeedTagLists[0][j]
  {
    DemoLowered0();
    NormalForms(LowerCasing, DemoSeedMarked[0], ["#Enterprise", "#Integration", "#akka", "#alpakka"], ["", "", "", ""], DemoSeedTagLists[0]);
  }

  /** The tags of seed tweet 0. */
  lemma DemoTweetTags0()
    ensures TweetHashTags(LowerCasing, DemoSeedTweets[0]) == TagsOf(DemoSeedTagLists[0])
  {
    DemoNoSpaceInWords0();
    DemoMarkedWords0();
    DemoNormalForms0();
    JoinedWordsTags(LowerCasing, DemoSeedWords[0], DemoSeedMarked[0], DemoSeedTagLists[0]);
  }

  lemma DemoNoSpaceInWords1()
    ensures forall k :: 0 <= k < |DemoSeedWords[1]| ==> ' ' !in DemoSeedWords[1][k]
  {
  }

  lemma DemoMarkedWords1()
    ensures forall t :: t in DemoSeedWords[1] && StartsWithMarker(t) <==> t in DemoSeedMarked[1]
  {
  }

  /** The lower-cased forms of the clean words of seed tweet 1. */
  lemma DemoLowered1()
    ensures LowerAscii("#scala") == "#scala"
  {
  }

  lemma DemoNormalForms1()
    ensures |DemoSeedTagLists[1]| == |DemoSeedMarked[1]|
    ensures forall j :: 0 <= j < |DemoSeedMarked[1]| ==> Normalize(LowerCasing, DemoSeedMarked[1][j]) == DemoSeedTagLists[1][j]
  {
    DemoLowered1();
    NormalForms(LowerCasing, DemoSeedMarked[1], ["#scala"], [""], DemoSeedTagLists[1]);
  }

  /** The tags of seed tweet 1. */
  lemma DemoTweetTags1()
    ensures TweetHashTags(LowerCasing, DemoSeedTweets[1]) == TagsOf(DemoSeedTagLists[1])
  {
    DemoNoSpaceInWords1();
    DemoMarkedWords1();
    DemoNormalForms1();
    JoinedWordsTags(LowerCasing, DemoSeedWords[1], DemoSeedMarked[1], DemoSeedTagLists[1]);
  }

  lemma DemoNoSpaceInWords2()
    ensures forall k :: 0 <= k < |DemoSeedWords[2]| ==> ' ' !in DemoSeedWords[2][k]
  {
  }

  lemma DemoMarkedWords2()
    ensures forall t :: t in DemoSeedWords[2] && StartsWithMarker(t) <==> t in DemoSeedMarked[2]
  {
  }

  /** The lower-cased forms of the clean words of seed tweet 2. */
  lemma DemoLowered2()
    ensures LowerAscii("#akka") == "#akka"
  {
  }

  lemma DemoNormalForms2()
    ensures |DemoSeedTagLists[2]| == |DemoSeedMarked[2]|
    ensures forall j :: 0 <= j < |DemoSeedMarked[2]| ==> Normalize(LowerCasing, DemoSeedMarked[2][j]) == DemoSeedTagLists[2][j]
  {
    DemoLowered2();
    NormalForms(LowerCasing, DemoSeedMarked[2], ["#akka"], [""], DemoSeedTagLists[2]);
  }

  /** The tags of seed tweet 2. */
  lemma DemoTweetTags2()
    ensures TweetHashTags(LowerCasing, DemoSeedTweets[2]) == TagsOf(DemoSeedTagLists[2])
  {
    DemoNoSpaceInWords2();
    DemoMarkedWords2();
    DemoNormalForms2();
    JoinedWordsTags(LowerCasing, DemoSeedWords[2], DemoSeedMarked[2], DemoSeedTagLists[2]);
  }

  lemma DemoNoSpaceInWords3()
    ensures forall k :: 0 <= k < |DemoSeedWords[3]| ==> ' ' !in DemoSeedWords[3][k]
  {
  }

  lemma DemoMarkedWords3()
    ensures forall t :: t in DemoSeedWords[3] && StartsWithMarker(t) <==> t in DemoSeedMarked[3]
  {
  }

  /** The lower-cased forms of the clean words of seed tweet 3. */
  lemma DemoLowered3()
    ensures LowerAscii("#Akka") == "#akka"
    ensures LowerAscii("#CRDTs") == "#crdts"
  {
  }

  lemma DemoNormalForms3()
    ensures |DemoSeedTagLists[3]| == |DemoSeedMarked[3]|
    ensures forall j :: 0 <= j < |DemoSeedMarked[3]| ==> Normalize(LowerCasing, DemoSeedMarked[3][j]) == DemoSeedTagLists[3][j]
  {
    DemoLowered3();
    NormalForms(LowerCasing, DemoSeedMarked[3], ["#Akka", "#CRDTs"], ["", ","], DemoSeedTagLists[3]);
  }

  /** The tags of seed tweet 3. */
  lemma DemoTweetTags3()
    ensures TweetHashTags(LowerCasing, DemoSeedTweets[3]) == TagsOf(DemoSeedTagLists[3])
  {
    DemoNoSpaceInWords3();
    DemoMarkedWords3();
    DemoNormalForms3();
    JoinedWordsTags(LowerCasing, DemoSeedWords[3], DemoSeedMarked[3], DemoSeedTagLists[3]);
  }

  lemma DemoNoSpaceInWords4()
    ensures forall k :: 0 <= k < |DemoSeedWords[4]| ==> ' ' !in DemoSeedWords[4][k]
  {
  }

  lemma DemoMarkedWords4()
    ensures forall t :: t in DemoSeedWords[4] && StartsWithMarker(t) <==> t in DemoSeedMarked[4]
  {
  }

  /** The lower-cased forms of the clean words of seed tweet 4. */
  lemma DemoLowered4()
    ensures LowerAscii("#Spring") == "#spring"
  {
  }

  lemma DemoNormalForms4()
    ensures |DemoSeedTagLists[4]| == |DemoSeedMarked[4]|
    ensures forall j :: 0 <= j < |DemoSeedMarked[4]| ==> Normalize(LowerCasing, DemoSeedMarked[4][j]) == DemoSeedTagLists[4][j]
  {
    DemoLowered4();
    NormalForms(LowerCasing, DemoSeedMarked[4], ["#Spring"], [""], DemoSeedTagLists[4]);
  }

  /** The tags of seed tweet 4. */
  lemma DemoTweetTags4()
    ensures TweetHashTags(LowerCasing, DemoSeedTweets[4]) == TagsOf(DemoSeedTagLists[4])
  {
    DemoNoSpaceInWords4();
    DemoMarkedWords4();
    DemoNormalForms4();
    JoinedWordsTags(LowerCasing, DemoSeedWords[4], DemoSeedMarked[4], DemoSeedTagLists[4]);
  }

  lemma DemoNoSpaceInWords5()
    ensures forall k :: 0 <= k < |DemoSeedWords[5]| ==> ' ' !in DemoSeedWords[5][k]
  {
  }

  lemma DemoMarkedWords5()
    ensures forall t :: t in DemoSeedWords[5] && StartsWithMarker(t) <==> t in DemoSeedMarked[5]
  {
  }

  /** The lower-cased forms of the clean words of seed tweet 5. */
  lemma DemoLowered5()
    ensures LowerAscii("#platform") == "#platform"
  {
  }

  lemma DemoNormalForms5()
    ensures |DemoSeedTagLists[5]| == |DemoSeedMarked[5]|
    ensures forall j :: 0 <= j < |DemoSeedMarked[5]| ==> Normalize(LowerCasing, DemoSeedMarked[5][j]) == DemoSeedTagLists[5][j]
  {
    DemoLowered5();
    NormalForms(LowerCasing, DemoSeedMarked[5], ["#platform"], [""], DemoSeedTagLists[5]);
  }

  /** The tags of seed tweet 5. */
  lemma DemoTweetTags5()
    ensures TweetHashTags(LowerCasing, DemoSeedTweets[5]) == TagsOf(DemoSeedTagLists[5])
  {
    DemoNoSpaceInWords5();
    DemoMarkedWords5();
    DemoNormalForms5();
    JoinedWordsTags(LowerCasing, DemoSeedWords[5], DemoSeedMarked[5], DemoSeedTagLists[5]);
  }

  /** The aggregate of the first 1 seed tweets. */
  lemma DemoPrefixAggregate1()
    ensures Aggregate(LowerCasing, DemoSeedTweets[..1]) == Some(TagsOf(DemoSeedTagLists[0]))
  {
    DemoTweetTags0();
    AggregateFirst(LowerCasing, DemoSeedTweets);
  }

  /** The aggregate of the first 2 seed tweets. */
  lemma DemoPrefixAggregate2()
    ensures Aggregate(LowerCasing, DemoSeedTweets[..2]) == Some(TagsOf(DemoSeedTagLists[0] + DemoSeedTagLists[1]))
  {
    DemoTweetTags1();
    DemoPrefixAggregate1();
    AggregateSnoc(LowerCasing, DemoSeedTweets, 1);
    TagsOfAppend(DemoSeedTagLists[0], DemoSeedTagLists[1]);
  }

  /** The aggregate of the first 3 seed tweets. */
  lemma DemoPrefixAggregate3()
    ensures Aggregate(LowerCasing, DemoSeedTweets[..3]) == Some(TagsOf(DemoSeedTagLists[0] + DemoSeedTagLists[1] + DemoSeedTagLists[2]))
  {
    DemoTweetTags2();
    DemoPrefixAggregate2();
    AggregateSnoc(LowerCasing, DemoSeedTweets, 2);
    TagsOfAppend(DemoSeedTagLists[0] + DemoSeedTagLists[1], DemoSeedTagLists[2]);
  }

  /** The aggregate of the first 4 seed tweets. */
  lemma DemoPrefixAggregate4()
    ensures Aggregate(LowerCasing, DemoSeedTweets[..4]) == Some(TagsOf(DemoSeedTagLists[0] + DemoSeedTagLists[1] + DemoSeedTagLists[2] + DemoSeedTagLists[3]))
  {
    DemoTweetTags3();
    DemoPrefixAggregate3();
    AggregateSnoc(LowerCasing, DemoSeedTweets, 3);
    TagsOfAppend(DemoSeedTagLists[0] + DemoSeedTagLists[1] + DemoSeedTagLists[2], DemoSeedTagLists[3]);
  }

  /** The aggregate of the first 5 seed tweets. */
  lemma DemoPrefixAggregate5()
    ensures Aggregate(LowerCasing, DemoSeedTweets[..5]) == Some(TagsOf(DemoSeedTagLists[0] + DemoSeedTagLists[1] + DemoSeedTagLists[2] + DemoSeedTagLists[3] + DemoSeedTagLists[4]))
  {
    DemoTweetTags4();
    DemoPrefixAggregate4();
    AggregateSnoc(LowerCasing, DemoSeedTweets, 4);
    TagsOfAppend(DemoSeedTagLists[0] + DemoSeedTagLists[1] + DemoSeedTagLists[2] + DemoSeedTagLists[3], DemoSeedTagLists[4]);
  }

  /** The aggregate of the first 6 seed tweets. */
  lemma DemoPrefixAggregate6()
    ensures Aggregate(LowerCasing, DemoSeedTweets[..6]) == Some(TagsOf(DemoSeedTagLists[0] + DemoSeedTagLists[1] + DemoSeedTagLists[2] + DemoSeedTagLists[3] + DemoSeedTagLists[4] + DemoSeedTagLists[5]))
  {
    DemoTweetTags5();
    DemoPrefixAggregate5();
    AggregateSnoc(LowerCasing, DemoSeedTweets, 5);
    TagsOfAppend(DemoSeedTagLists[0] + DemoSeedTagLists[1] + DemoSeedTagLists[2] + DemoSeedTagLists[3] + DemoSeedTagLists[4], DemoSeedTagLists[5]);
  }

  /** Every tag of a seed tweet is listed, and every listed tag belongs to a seed tweet. */
  lemma DemoSeedTagsListed()
    ensures forall t :: t in DemoSeedTagLists[0] + DemoSeedTagLists[1] + DemoSeedTagLists[2] + DemoSeedTagLists[3] + DemoSeedTagLists[4] + DemoSeedTagLists[5] <==> t in DemoSeedTags
  {
    forall t | t in DemoSeedTagLists[0] + DemoSeedTagLists[1] + DemoSeedTagLists[2] + DemoSeedTagLists[3] + DemoSeedTagLists[4] + DemoSeedTagLists[5] ensures t in DemoSeedTags {
      if t in DemoSeedTagLists[0] {}
      else if t in DemoSeedTagLists[1] {}
      else if t in DemoSeedTagLists[2] {}
      else if t in DemoSeedTagLists[3] {}
      else if t in DemoSeedTagLists[4] {}
    }
    forall j | 0 <= j < |DemoSeedTags| ensures DemoSeedTags[j] in DemoSeedTagLists[0] + DemoSeedTagLists[1] + DemoSeedTagLists[2] + DemoSeedTagLists[3] + DemoSeedTagLists[4] + DemoSeedTagLists[5] {
      if j == 0 { assert DemoSeedTags[j] in DemoSeedTagLists[0]; }
      else if j == 1 { assert DemoSeedTags[j] in DemoSeedTagLists[0]; }
      else if j == 2 { assert DemoSeedTags[j] in DemoSeedTagLists[0]; }
      else if j == 3 { assert DemoSeedTags[j] in DemoSeedTagLists[0]; }
      else if j == 4 { assert DemoSeedTags[j] in DemoSeedTagLists[1]; }
      else if j == 5 { assert DemoSeedTags[j] in DemoSeedTagLists[3]; }
      else if j == 6 { assert DemoSeedTags[j] in DemoSeedTagLists[4]; }
      else { assert DemoSeedTags[j] in DemoSeedTagLists[5]; }
    }
  }

  lemma DemoSeedTagsOf()
    ensures TagsOf(DemoSeedTagLists[0] + DemoSeedTagLists[1] + DemoSeedTagLists[2] + DemoSeedTagLists[3] + DemoSeedTagLists[4] + DemoSeedTagLists[5]) == TagsOf(DemoSeedTags)
  {
    DemoSeedTagsListed();
    TagsOfSameElements(DemoSeedTagLists[0] + DemoSeedTagLists[1] + DemoSeedTagLists[2] + DemoSeedTagLists[3] + DemoSeedTagLists[4] + DemoSeedTagLists[5], DemoSeedTags);
  }

  /** The aggregate of the seed tweets is exactly the listed tags. */
  lemma DemoSeedAggregate()
    ensures Aggregate(LowerCasing, DemoSeedTweets) == Some(TagsOf(DemoSeedTags))
  {
    DemoPrefixAggregate6();
    assert |DemoSeedTweets| == 6;
    assert DemoSeedTweets[..6] == DemoSeedTweets;
    DemoSeedTagsOf();
  }
}

=== FILE: split.dfy ===
/** Java's `String.split(" ")` (limit 0) on a string: the text is cut at every
    single space, trailing empty strings are dropped, and a text with no space
    at all comes back as the one-element array holding the text itself. */
module SpaceSplit {

  /** Index of the first space of `s`. */
  function FirstSpace(s: string): (i: nat)
    requires ' ' in s
    ensures i < |s| && s[i] == ' '
    ensures ' ' !in s[..i]
    decreases |s|
  {
    if s[0] == ' ' then 0
    else
      assert ' ' in s[1..] by {
        var k :| 0 <= k < |s| && s[k] == ' ';
        assert s[1..][k - 1] == ' ';
      }
      var i := FirstSpace(s[1..]);
      assert s[..i + 1] == [s[0]] + s[1..][..i];
      1 + i
  }

  /** A space with no space before it is the first space. */
  lemma FirstSpaceAt(s: string, k: int)
    requires 0 <= k < |s| && s[k] == ' '
    requires ' ' !in s[..k]
    ensures FirstSpace(s) == k
  {
  }

  /** The pieces between consecutive spaces, empty ones included. */
  function RawSplit(s: string): (r: seq<string>)
    ensures |r| >= 1
    ensures forall k :: 0 <= k < |r| ==> ' ' !in r[k]
    ensures |r| == 1 <==> ' ' !in s
    decreases |s|
  {
    if ' ' !in s then [s]
    else
      var i := FirstSpace(s);
      [s[..i]] + RawSplit(s[i + 1..])
  }

  /** Glues pieces back together with one space between neighbours. */
  function Join(pieces: seq<string>): string
    requires |pieces| >= 1
    decreases |pieces|
  {
    if |pieces| == 1 then pieces[0]
    else pieces[0] + " " + Join(pieces[1..])
  }

  /** A text is the stretch before one of its spaces, the space, and the
      stretch after it. */
  lemma CutAtSpace(s: string, i: int)
    requires 0 <= i < |s| && s[i] == ' '
    ensures s == s[..i] + " " + s[i + 1..]
  {
    assert s[i..] == [s[i]] + s[i + 1..];
    assert s == s[..i] + s[i..];
  }

  /** Cutting at spaces loses nothing: the pieces glue back to the text. */
  lemma {:induction false} JoinRawSplit(s: string)
    ensures Join(RawSplit(s)) == s
    decreases |s|
  {
    if ' ' in s {
      var i := FirstSpace(s);
      var head, tail := s[..i], s[i + 1..];
      var r := RawSplit(s);
      RawSplitUnfold(s);
      assert r[0] == head && r[1..] == RawSplit(tail);
      CutAtSpace(s, i);
      calc {
        Join(r);
        head + " " + Join(RawSplit(tail));
        { JoinRawSplit(tail); }
        head + " " + tail;
      }
    }
  }

  /** When the left part has no space, the joining space is the first one. */
  lemma RawSplitAppendNoSpace(a: string, b: string)
    requires ' ' !in a
    ensures RawSplit(a + " " + b) == [a] + RawSplit(b)
  {
    var s := a + " " + b;
    assert s[..|a|] == a;
    FirstSpaceAt(s, |a|);
    assert s[..|a|] == a;
    assert s[|a| + 1..] == b;
  }

  /** When the left part has a space, its first space is the text's first. */
  lemma RawSplitAppendFirst(a: string, b: string)
    requires ' ' in a
    ensures RawSplit(a + " " + b) == [a[..FirstSpace(a)]] + RawSplit(a[FirstSpace(a) + 1..] + " " + b)
  {
    var s := a + " " + b;
    var j := FirstSpace(a);
    assert s[..j] == a[..j];
    FirstSpaceAt(s, j);
    assert s[..j] == a[..j];
    assert s[j + 1..] == a[j + 1..] + " " + b;
  }

  /** Pieces that hold no space are recovered exactly from their join. */
  lemma {:induction false} RawSplitJoin(pieces: seq<string>)
    requires |pieces| >= 1
    requires forall k :: 0 <= k < |pieces| ==> ' ' !in pieces[k]
    ensures RawSplit(Join(pieces)) == pieces
    decreases |pieces|
  {
    if |pieces| > 1 {
      RawSplitJoin(pieces[1..]);
      RawSplitAppendNoSpace(pieces[0], Join(pieces[1..]));
      assert pieces == [pieces[0]] + pieces[1..];
    }
  }

  /** Splitting a text at one of its spaces splits its pieces there too. */
  lemma {:induction false} RawSplitAppend(a: string, b: string)
    ensures RawSplit(a + " " + b) == RawSplit(a) + RawSplit(b)
    decreases |a|
  {
    if ' ' in a {
      var j := FirstSpace(a);
      var head, tail := a[..j], a[j + 1..];
      calc {
        RawSplit(a + " " + b);
        { RawSplitAppendFirst(a, b); }
        [head] + RawSplit(tail + " " + b);
        { RawSplitAppend(tail, b); }
        [head] + (RawSplit(tail) + RawSplit(b));
        ([head] + RawSplit(tail)) + RawSplit(b);
        RawSplit(a) + RawSplit(b);
      }
    } else {
      RawSplitAppendNoSpace(a, b);
    }
  }

  /** The piece `s[i..j]` is delimited by spaces or by the ends of the text
      and holds no space. */
  predicate IsPieceAt(s: string, i: int, j: int)
    requires 0 <= i <= j <= |s|
  {
    && (i == 0 || s[i - 1] == ' ')
    && (j == |s| || s[j] == ' ')
    && ' ' !in s[i..j]
  }

  /** A piece of the text after its first space is a piece of the whole
      text, shifted past that space. */
  lemma PieceAtShift(s: string, i0: int, i: int, j: int, i': int, j': int)
    requires 0 <= i0 < |s| && s[i0] == ' '
    requires 0 <= i' <= j' <= |s| - i0 - 1
    requires i == i' + i0 + 1 && j == j' + i0 + 1
    ensures IsPieceAt(s[i0 + 1..], i', j') <==> IsPieceAt(s, i, j)
    ensures s[i0 + 1..][i'..j'] == s[i..j]
  {
    var rest := s[i0 + 1..];
    assert rest[i'..j'] == s[i..j];
    assert i' > 0 ==> rest[i' - 1] == s[i - 1];
    assert j' < |rest| ==> rest[j'] == s[j];
  }

  /** Every piece of the raw split sits between spaces in the text. */
  lemma {:induction false} RawSplitPieceAt(s: string, t: string)
    requires t in RawSplit(s)
    ensures exists i, j :: 0 <= i <= j <= |s| && IsPieceAt(s, i, j) && t == s[i..j]
    decreases |s|
  {
    if ' ' !in s {
      assert IsPieceAt(s, 0, |s|) && s == s[0..|s|];
    } else {
      var i0 := FirstSpace(s);
      var rest := s[i0 + 1..];
      if t == s[..i0] {
        assert s[0..i0] == s[..i0];
        assert IsPieceAt(s, 0, i0) && t == s[0..i0];
      } else {
        assert t in RawSplit(rest);
        RawSplitPieceAt(rest, t);
        var i, j :| 0 <= i <= j <= |rest| && IsPieceAt(rest, i, j) && t == rest[i..j];
        PieceAtShift(s, i0, i + i0 + 1, j + i0 + 1, i, j);
      }
    }
  }

  /** A piece that starts no later than the first space ends there. */
  lemma PieceAtBeforeFirstSpace(s: string, i: int, j: int)
    requires ' ' in s
    requires 0 <= i <= j <= |s| && IsPieceAt(s, i, j)
    requires i <= FirstSpace(s)
    ensures i == 0 && j == FirstSpace(s)
  {
  }

  /** The raw split of a text with a space starts with the stretch before
      its first space and continues with the raw split of the rest. */
  lemma RawSplitUnfold(s: string)
    requires ' ' in s
    ensures RawSplit(s) == [s[..FirstSpace(s)]] + RawSplit(s[FirstSpace(s) + 1..])
  {
  }

  /** Every space-delimited stretch of the text is a piece of the raw split. */
  lemma {:induction false} PieceAtInRawSplit(s: string, i: int, j: int)
    requires 0 <= i <= j <= |s| && IsPieceAt(s, i, j)
    ensures s[i..j] in RawSplit(s)
    decreases |s|
  {
    if ' ' !in s {
      assert i == 0 && j == |s|;
      assert s[i..j] == s;
    } else {
      var i0 := FirstSpace(s);
      RawSplitUnfold(s);
      if i <= i0 {
        PieceAtBeforeFirstSpace(s, i, j);
      } else {
        var i', j' := i - i0 - 1, j - i0 - 1;
        PieceAtShift(s, i0, i, j, i', j');
        PieceAtInRawSplit(s[i0 + 1..], i', j');
      }
    }
  }

  /** Java drops the empty strings at the end of the split result. */
  function DropTrailingEmpty(pieces: seq<string>): (r: seq<string>)
    ensures r <= pieces
    ensures forall k :: |r| <= k < |pieces| ==> pieces[k] == []
    ensures |r| > 0 ==> r[|r| - 1] != []
    decreases |pieces|
  {
    if |pieces| == 0 then []
    else if pieces[|pieces| - 1] == [] then DropTrailingEmpty(pieces[..|pieces| - 1])
    else pieces
  }

  /** `text.split(" ")`: with no space in the text the answer is `[text]`
      (even for the empty text); otherwise it is the raw split with its
      trailing empty strings removed. */
  function Split(s: string): (r: seq<string>)
    ensures r <= RawSplit(s)
    ensures forall k :: |r| <= k < |RawSplit(s)| ==> RawSplit(s)[k] == []
    ensures ' ' in s && |r| > 0 ==> r[|r| - 1] != []
    ensures ' ' !in s ==> r == [s]
  {
    if ' ' !in s then [s] else DropTrailingEmpty(RawSplit(s))
  }

  /** Dropping trailing empty strings never changes which non-empty pieces
      are present. */
  lemma SplitNonEmptyPieces(s: string, t: string)
    requires t != []
    ensures t in Split(s) <==> t in RawSplit(s)
  {
    var r, raw := Split(s), RawSplit(s);
    if t in raw {
      var k :| 0 <= k < |raw| && raw[k] == t;
      assert k < |r|;
      assert r[k] == t;
    }
  }
}
